=== FILE: README.md ===
# AI screener backend: job lifecycle and evaluation pipeline

This project models the core of an asynchronous CV screening service in
Dafny. An HTTP API accepts two uploaded PDFs (a CV and a project report) and
an evaluation request. It queues a job and keeps each job's state in an
in-memory store. A worker then takes the job through a fixed pipeline:

1. extract the text of both PDFs;
2. embed the first 500 characters of the CV;
3. retrieve up to four reference documents from a vector index;
4. build a prompt and ask a generative model for a JSON evaluation;
5. strip code fences from the answer and parse it.

The job record goes `queued`, then `processing`, then `completed` with the
parsed result or `failed` with the error message.

Modules, in dependency order:

- `Outcomes`: `Option`, and `Outcome` for a call that returns a value or throws with a message.
- `JsonValues`: JSON values and JavaScript truthiness.
- `JsString`: the JavaScript string operations the code uses:
  - global `replace` with leftmost, non-overlapping matches;
  - `trim` with the ECMAScript white-space and line-terminator set;
  - `substring` with its clamping and swapping;
  - `Array.prototype.join`.
- `Pdf`: `parsePdf`, with its existence check, CR LF normalisation and `path.basename`.
- `Response`: cleaning the generator's answer before `JSON.parse`.
- `Prompt`: the embedding query, the retrieval context and the prompt template.
- `Jobs`: job records, their shapes per status, and the store.
- `Pipeline`: the worker's job handler.
  - Every external service is a field of `Env`: the file system, the PDF parser, the embedder, the vector search, the generator and `JSON.parse`.
  - The handler is a pure function from the services' answers to the calls it makes and the records it writes.
- `Api`: the three HTTP routes as transitions over the store and the queue.
- `Lifecycle`: the statuses a job goes through under the sequential schedule, and under the schedule where the seed write lands last.

## Model

| member | source | states |
|---|---|---|
| JsonValues.FalsyValues | index.js:49 | A field fails validation exactly when it is undefined, null, false, 0 or the empty string. |
| JsString.ReplaceAll | worker.js:41 | A global replace only produces characters of the input or of the replacement; replacing with the empty string never lengthens the text. |
| JsString.ReplaceAllAbsent | worker.js:138-139 | Text with no occurrence of the pattern comes out of a global replace unchanged. |
| JsString.ReplaceAllSkipsPrefix | worker.js:138-139 | A prefix that cannot start a match is kept, and replacing continues on the rest. |
| JsString.ReplaceAllBeforeBreak | worker.js:138-139 | No match spans a character the pattern does not contain: a pattern-free text before such a character is copied, and replacing resumes after it. |
| JsString.Trim | worker.js:140 | `trim` leaves no white space at either end, and what it removed at both ends is all white space. |
| JsString.TrimSurrounded | worker.js:140 | Trimming white space wrapped around a trimmed non-empty core gives back exactly the core. |
| JsString.TrimOfTrimmed | worker.js:140 | Trimming a string with no white space at either end changes nothing. |
| JsString.TrimKeepsAbsence | worker.js:140 | Trimming cannot create an occurrence of a pattern. |
| JsString.Substring | worker.js:84 | `substring` returns the text between its two clamped indices: its length is their distance and it sits in the string at the smaller one. |
| JsString.SubstringSwap | worker.js:84 | The two indices of `substring` may come in either order. |
| JsString.SubstringClamps | worker.js:84 | A negative index acts as 0, and an index past the end acts as the string's length. |
| JsString.SubstringPrefix | worker.js:84 | `substring(0, n)` is the prefix of length `n` clamped to the string's length, and the whole string when `n` reaches its length. |
| JsString.JoinPart | worker.js:102 | `join` puts each part verbatim at its offset: the lengths of the parts before it plus one separator per earlier part. |
| JsString.JoinSeparator | worker.js:102 | `join` puts exactly one separator right after every part but the last. |
| JsString.JoinLength | worker.js:102 | Nothing follows the last part of a join, so its length is the parts' lengths plus one separator between each consecutive pair. |
| Response.StripFencesLeavesNone | worker.js:139 | After every "```" is deleted, no "```" is left, even where a deletion brought backticks together. |
| Response.Clean | worker.js:137-140 | The cleaned answer has no white space at either end and contains no "```"; an answer without backticks is only trimmed. |
| Response.CleanIdempotent | worker.js:137-140 | Cleaning an already cleaned answer changes nothing. |
| Response.CleanUnwrapsFencedJson | worker.js:137-140 | A text wrapped in a ```json fence, each fence on its own line, cleans to exactly that text. The text must be non-empty, have no white space at either end and hold no "```" of its own; single or double backticks inside it are kept. A JSON text with leading white space, or a JSON string holding "```", is changed by the cleaning. |
| Pdf.NormalizeLeavesNoCrlf | worker.js:41 | Normalised PDF text contains no CR LF pair. |
| Pdf.NormalizeIdempotent | worker.js:41 | Normalising normalised text changes nothing. |
| Pdf.BasenameOfJoin | worker.js:36 | The base name of a slash-free file name under a directory is that file name. |
| Pdf.ParsePdf | worker.js:29-51 | A missing file fails with "File not found: " and the full path before the parser runs. A parser data error fails with the base name. It succeeds exactly when the file exists and parses, and then returns the extracted text with every CR LF pair replaced by a space, so no CR LF pair is left. |
| Prompt.EmbeddingQuery | worker.js:84 | The embedding query is the prefix of the CV text of length min(500, its length). |
| Prompt.ContextLayout | worker.js:97-102 | The context has one `--- DOCUMENT: type ---` block per hit, in retrieval order, with a blank line between consecutive blocks and nothing else; no hits give the empty string. |
| Prompt.FillLayout | worker.js:109-129 | The prompt is the template literal with three slots. The context, the whole CV and the whole report sit verbatim right after their headings, in that order, nothing is truncated, and the length is the sum of the pieces. `BuildPrompt` fills the template with the instructions, the three headings and the indented closing line of worker.js:109-129. |
| Prompt.FillEmptyContext | worker.js:123-125 | With no retrieved documents the CV heading follows the context heading directly. |
| Prompt.PromptEnds | worker.js:109-129 | The prompt starts with a newline and ends with a newline followed by eight spaces. |
| Jobs.WellFormedResultXorError | worker.js:145-149 | A well-formed record has a result exactly when completed and an error exactly when failed; it never has both. |
| Pipeline.ChainedMeans | worker.js:73-150 | The calls made follow the stage order, and every call but the last returned. The run succeeds exactly when all six stages ran and returned; otherwise it fails with the last call's error. |
| Pipeline.RunCv | worker.js:78 | The CV is parsed first; only when it parses is the report parsed. |
| Pipeline.RunReport | worker.js:79 | The report is parsed next; only when it parses is the CV prefix embedded. |
| Pipeline.RunEmbed | worker.js:84 | The embedder gets the CV prefix; only when it returns is the index searched with its vector. |
| Pipeline.RunSearch | worker.js:91-102 | The index is searched with limit 4; only when it answers is the generator called, on the prompt built from the hits and both texts. |
| Pipeline.RunGenerate | worker.js:133-134 | The generator gets the prompt; only when it answers is the cleaned answer parsed. |
| Pipeline.RunParse | worker.js:137-141 | `JSON.parse` gets the cleaned answer, and its value or error ends the run. |
| Pipeline.RunStages | worker.js:74-141 | No call is made exactly when a file id (`cv_id` or `report_id`) is not a string, because `path.join` throws first. The CV path is built first, so the run fails with the message of the CV's `path.join` error if it throws and with the report's otherwise. When both paths are built, the run is chained from the first stage. |
| Pipeline.StageInputs | worker.js:76-141 | Gives each call's argument in terms of the job data and the earlier answers. |
| Pipeline.MissingCvStopsRun | worker.js:45-49 | A missing CV file makes one call and fails with "File not found: <path>"; nothing later runs. |
| Pipeline.EmptySearchStillGenerates | worker.js:97-134 | An empty search result still leads to a generator call, as the fifth call, on the prompt built from the empty context and both texts. |
| Pipeline.FencedAnswerParsedBare | worker.js:137-141 | An answer that wraps a text in a ```json fence reaches `JSON.parse` as exactly that text. As for `Response.CleanUnwrapsFencedJson`, the text must be non-empty, have no white space at either end and hold no "```". |
| Pipeline.Handle | worker.js:68-151 | `processing` is written before any call, and exactly one terminal write comes last. That write is completed exactly when the run succeeded. No error escapes the handler. |
| Pipeline.HandleOutcome | worker.js:76-149 | A completed record holds exactly `JSON.parse`'s unchecked value. A failed record holds the message of the last call, or, when no call was made, the message of the first `path.join` that threw. |
| Api.UuidNotInherited | index.js:55 | A generated job id never names an inherited object property. |
| Api.RecordRoundTrip | index.js:80 | The JSON sent for a record reads back as that record, field for field. |
| Api.Upload | index.js:27-45 | 400 exactly when `req.files`, its `cv` or its `report` is missing. 500 when a field's array is empty. Otherwise 200 with both stored file names. |
| Api.Evaluate | index.js:47-70 | A falsy or missing field gives 400 with nothing changed. Otherwise the job is enqueued with the three fields, the new id is seeded `queued` with the whole body, and the reply is 202 with that id. Other entries and the store invariant are unchanged. |
| Api.Lookup | index.js:72-81 | 404 exactly when no job is stored under the id; otherwise 200 with a body that reads back as the stored record. |
| Api.LookupAsWritten | index.js:72-81 | The route as written: 200 also for the names every object inherits; it agrees with `Lookup` on all other ids. |
| Api.LookupAsWrittenFindsConstructor | index.js:74-77 | On an empty store, `/result/constructor` gets 200 with no body instead of 404. |
| Api.LookupAsWrittenDiffers | index.js:74-77 | Every inherited name that is not a job id gets 200 as written, where 404 is intended. |
| Api.UploadThenEvaluate | index.js:39-58 | An evaluation built from a successful upload is accepted exactly when the title is truthy and both file names are non-empty, and the queued payload carries both names as strings. |
| Api.EvaluateThenLookup | index.js:62-80 | Right after an accepted evaluation, its id reads back as the queued record holding the request body. |
| Lifecycle.HandleWrites | worker.js:71-149 | A handler run writes the store exactly twice, under its own id: `processing`, then the terminal record. |
| Lifecycle.SequentialLifecycle | index.js:56-67 | With the seed landing before the worker starts, the job goes queued, processing, terminal. The store invariant holds after every one of the three writes. The job ends with the handler's final record and every other job is untouched. |
| Lifecycle.SeedLastRegresses | index.js:56-67 | When the worker's writes land before the seed, the statuses go processing, terminal, queued; the job stays queued although its run finished. |
| Lifecycle.FinalRecordWellFormed | worker.js:145-149 | The terminal record is well formed, and it is completed exactly when the run succeeded. |
| Lifecycle.UploadedJobReachesParsing | worker.js:76-78 | A job submitted with uploaded ids gets past path building, and its first call parses the uploaded CV. |

## Behaviour the code does not enforce

The model follows the code in each case below.

- **Result validation.** An evaluation is meant to carry the five fields `cv_match_rate`, `cv_feedback`, `project_score`, `project_feedback` and `overall_summary`, with `cv_match_rate` between 0 and 1 and `project_score` between 1 and 5. The code stores whatever `JSON.parse` returns.
- **Status monotonicity.**
  - A job's status is meant to move only forward, and its `queued` record is meant to exist before the job is put on the queue, where the worker can take it.
  - The code enqueues first and seeds afterwards (index.js:56-67). Neither write checks the stored status.
  - Monotonicity is proved only for the sequential schedule. The schedule where the seed lands last is modelled as it is: `Lifecycle.SeedLastRegresses`.
- **Error records.** Only `error.message` is recorded; the kind of error is lost.
- **Response parsing.** The answer is stripped of fences once and parsed once; there is no lenient parse and no retry.
- **Prompt size.** A prompt of any length is passed to the generator; nothing fails when it is too large.

## Left out

- scripts/ingest.js: seeds the vector index with fixed documents. It only calls a service and holds no logic.
- Embedding, similarity search, PDF decoding, the generative model and the internals of `JSON.parse`: foreign libraries. Each is an arbitrary field of `Env` that returns a value or an error message.
  - The model does not assume the index respects the limit of 4. Any number of hits is handled.
- `result.response.text()` can throw after the model call returns. That case is folded into the generator's error outcome.
- BullMQ, Redis, worker event logging and console output: transport and logging.
  - The queue is a sequence of jobs.
  - Redelivery, retries and the payload's JSON round trip through Redis are not modelled.
- `evaluationQueue.add` rejecting: the rejection is unhandled in the route, and what happens then depends on the Express and Node versions, which the code does not pin. That path is not modelled.
- Express and multer wiring:
  - static file serving;
  - multer's own rejections, such as an unexpected field or too many files;
  - upload file-name generation from `Date.now` and `Math.random`: stored names are inputs to `Api.Upload`.
- Job ids and timestamps are parameters. `Api.Evaluate` requires its id to have the shape of a version-4 uuid, which is what `uuidv4()` returns. It does not require the id to be fresh, because the code does not check that.
- Api.Evaluate: a body that is not an object has no fields, so the model answers it 400. `express.json` in strict mode only produces objects and arrays, so the only such body that arrives is an array, which gets 400 in the code as well. For a `null` body the destructuring at index.js:48 would throw instead; that case cannot arrive and is not modelled.
- Pipeline.UploadPath: `path.join` normalisation and `__dirname` are an uninterpreted `uploadPath` function. A non-string id gives the message of the `TypeError` that `path.join` throws.
- Strings are sequences of Unicode characters; JavaScript strings are UTF-16 code units.
  - The two agree on the 500-character query prefix only for text without surrogate pairs.
- An error thrown without a `message` (a non-`Error` value) is not modelled; every failure carries a message.
- Interleavings other than the sequential one and the seed-last one are not enumerated, for example the seed landing between the worker's two writes.

## Findings

| source | as written | input that shows it | evidently intended | confidence | as-written member | corrected member |
|---|---|---|---|---|---|---|
| index.js:74-76 | `jobResults` is a plain object, so `jobResults[id]` also finds inherited properties such as `constructor` or `__proto__`, and they are truthy | `GET /result/constructor` on an empty store is answered 200 with no body | 404 "Job not found" for every id no job is stored under | not executed | Api.LookupAsWrittenFindsConstructor | Api.Lookup |

=== FILE: api.dfy ===
/** The HTTP routes of the API server (index.js): `POST /upload`,
    `POST /evaluate` and `GET /result/:id`, each a function from the server
    state and the request to the new state and the reply.

    The server state is the job queue and the in-memory store `jobResults`;
    the job id (`uuidv4()`), the clock (`new Date().toISOString()`) and the
    names multer gives uploaded files are parameters. */
module Api {
  import opened Outcomes
  import opened JsonValues
  import opened Jobs

  /** An HTTP reply: the status code and the JSON body, `None` when no JSON
      body is sent (no body at all, or a body the model does not describe). */
  datatype Reply = Reply(status: nat, body: Option<Json>)

  function ErrorReply(status: nat, message: string): Reply
  {
    Reply(status, Some(JObj(map["error" := JStr(message)])))
  }

  // ---------------------------------------------------------------------
  // Job ids
  // ---------------------------------------------------------------------

  predicate IsHexDigit(c: char)
  {
    '0' <= c <= '9' || 'a' <= c <= 'f'
  }

  /** The shape of a string `uuidv4()` returns: 36 characters, hyphens at
      positions 8, 13, 18 and 23, version digit 4, variant digit 8, 9, a or
      b, lower-case hexadecimal elsewhere. */
  predicate IsUuid(s: string)
  {
    && |s| == 36
    && forall i :: 0 <= i < |s| ==>
         if i == 8 || i == 13 || i == 18 || i == 23 then s[i] == '-'
         else if i == 14 then s[i] == '4'
         else if i == 19 then s[i] in "89ab"
         else IsHexDigit(s[i])
  }

  /** The property names every plain object inherits from `Object.prototype`. */
  const InheritedNames: set<string> := {
    "constructor", "__proto__", "toString", "toLocaleString", "valueOf",
    "hasOwnProperty", "isPrototypeOf", "propertyIsEnumerable",
    "__defineGetter__", "__defineSetter__", "__lookupGetter__", "__lookupSetter__"
  }

  /** A job id never names an inherited property, so a job written under it
      is an own property of the store. */
  lemma UuidNotInherited(s: string)
    requires IsUuid(s)
    ensures s !in InheritedNames
  {
  }

  // ---------------------------------------------------------------------
  // Records as JSON
  // ---------------------------------------------------------------------

  function Present(key: string, v: Option<Json>): map<string, Json>
  {
    if v.Some? then map[key := v.value] else map[]
  }

  function StrJson(v: Option<string>): Option<Json>
  {
    if v.Some? then Some(JStr(v.value)) else None
  }

  /** A store entry as `res.json` sends it: a field the record does not set
      is not in the object. */
  function RecordJson(r: JobRecord): (j: Json)
    ensures j.JObj? && "status" in j.fields
    ensures j.fields["status"] == JStr(StatusName(r.status))
    ensures forall key :: key in j.fields ==>
              key in {"id", "status", "data", "createdAt", "result", "error"}
  {
    JObj(Present("id", StrJson(r.id))
         + Present("data", r.data)
         + Present("createdAt", StrJson(r.createdAt))
         + Present("result", r.result)
         + Present("error", StrJson(r.error))
         + map["status" := JStr(StatusName(r.status))])
  }

  /** The status a `status` string names. */
  function StatusNamed(name: string): (s: Option<Status>)
    ensures s.Some? ==> StatusName(s.value) == name
  {
    if name == "queued" then Some(Queued)
    else if name == "processing" then Some(Processing)
    else if name == "completed" then Some(Completed)
    else if name == "failed" then Some(Failed)
    else None
  }

  lemma StatusNamedInverse(s: Status)
    ensures StatusNamed(StatusName(s)) == Some(s)
  {
  }

  function StrField(fields: map<string, Json>, key: string): Option<string>
  {
    if key in fields && fields[key].JStr? then Some(fields[key].s) else None
  }

  /** How a client reads a record back from the body of `GET /result/:id`. */
  function RecordOf(j: Json): Option<JobRecord>
  {
    if j.JObj? && "status" in j.fields && j.fields["status"].JStr?
       && StatusNamed(j.fields["status"].s).Some?
    then
      var f := j.fields;
      Some(JobRecord(StrField(f, "id"), StatusNamed(f["status"].s).value, Field(f, "data"),
                     StrField(f, "createdAt"), Field(f, "result"), StrField(f, "error")))
    else None
  }

  /** The body sent for a record determines the record: reading it back
      gives every field as stored, and an unset field as unset. */
  lemma RecordRoundTrip(r: JobRecord)
    ensures RecordOf(RecordJson(r)) == Some(r)
  {
    StatusNamedInverse(r.status);
    RecordJsonFields(r);
  }

  lemma RecordJsonFields(r: JobRecord)
    ensures var f := RecordJson(r).fields;
            && StrField(f, "id") == r.id
            && Field(f, "data") == r.data
            && StrField(f, "createdAt") == r.createdAt
            && Field(f, "result") == r.result
            && StrField(f, "error") == r.error
  {
    var m0 := Present("id", StrJson(r.id));
    var m1 := m0 + Present("data", r.data);
    var m2 := m1 + Present("createdAt", StrJson(r.createdAt));
    var m3 := m2 + Present("result", r.result);
    var m4 := m3 + Present("error", StrJson(r.error));
    var f := m4 + map["status" := JStr(StatusName(r.status))];
    assert Field(m0, "id") == StrJson(r.id);
    assert Field(m1, "id") == StrJson(r.id) && Field(m1, "data") == r.data;
    assert Field(m2, "id") == StrJson(r.id) && Field(m2, "data") == r.data
           && Field(m2, "createdAt") == StrJson(r.createdAt);
    assert Field(m3, "id") == StrJson(r.id) && Field(m3, "data") == r.data
           && Field(m3, "createdAt") == StrJson(r.createdAt) && Field(m3, "result") == r.result;
    assert Field(m4, "id") == StrJson(r.id) && Field(m4, "data") == r.data
           && Field(m4, "createdAt") == StrJson(r.createdAt) && Field(m4, "result") == r.result
           && Field(m4, "error") == StrJson(r.error);
    assert f == RecordJson(r).fields;
  }

  // ---------------------------------------------------------------------
  // POST /upload
  // ---------------------------------------------------------------------

  const UploadMissingMessage: string := "Both cv and report files are required"
  const UploadedMessage: string := "Files uploaded successfully"

  /** The handler of `POST /upload` (index.js:27-45). `files` is `req.files`:
      absent when the request carried no multipart files, otherwise the
      stored file names per form field. Each field is an array, truthy even
      when empty; reading the first name of an empty array throws, which
      Express answers with status 500. `Reply(500, None)` stands for that
      reply: Express's default error handler sends an HTML page, not JSON,
      and the model does not describe it. multer only lists a field once a
      file has arrived for it, so it never hands the handler an empty array;
      the 500 branch is kept because the code reads the first name without
      checking. */
  function Upload(files: Option<map<string, seq<string>>>): (reply: Reply)
    ensures reply.status == 400 <==>
              files.None? || "cv" !in files.value || "report" !in files.value
    ensures reply.status == 400 ==> reply == ErrorReply(400, UploadMissingMessage)
    ensures reply.status == 500 <==>
              files.Some? && "cv" in files.value && "report" in files.value
              && (files.value["cv"] == [] || files.value["report"] == [])
    ensures reply.status == 200 ==>
              reply.body.Some? && reply.body.value.JObj?
              && Field(reply.body.value.fields, "message") == Some(JStr(UploadedMessage))
              && Field(reply.body.value.fields, "cv_id") == Some(JStr(files.value["cv"][0]))
              && Field(reply.body.value.fields, "report_id") == Some(JStr(files.value["report"][0]))
    ensures reply.status in {200, 400, 500}
  {
    if files.None? || "cv" !in files.value || "report" !in files.value then
      ErrorReply(400, UploadMissingMessage)
    else if files.value["cv"] == [] || files.value["report"] == [] then
      Reply(500, None)
    else
      Reply(200, Some(JObj(map[
        "message" := JStr(UploadedMessage),
        "cv_id" := JStr(files.value["cv"][0]),
        "report_id" := JStr(files.value["report"][0])])))
  }

  // ---------------------------------------------------------------------
  // POST /evaluate
  // ---------------------------------------------------------------------

  /** A job on the queue: its name, its payload and its id. */
  datatype QueuedJob = QueuedJob(name: Json, data: JobData, jobId: JobId)

  datatype Server = Server(store: Store, queue: seq<QueuedJob>)

  /** The new state and the reply of one request. */
  datatype Served = Served(server: Server, reply: Reply)

  const EvaluateMissingMessage: string := "job_title, cv_id, and report_id are required"

  /** A property read on a parsed JSON body: `express.json` gives an object
      or an array, and an array has none of the properties read here. */
  function Prop(body: Json, key: string): Option<Json>
  {
    if body.JObj? then Field(body.fields, key) else None
  }

  /** The validation of `POST /evaluate`: all three fields truthy. */
  predicate Accepts(body: Json)
  {
    Truthy(Prop(body, "job_title")) && Truthy(Prop(body, "cv_id")) && Truthy(Prop(body, "report_id"))
  }

  /** The handler of `POST /evaluate` (index.js:47-70), with the job id and
      the timestamp as parameters. A request missing a field, or carrying a
      falsy one, changes nothing and is answered 400. Otherwise the job is
      enqueued with the three fields as its payload, then the store entry for
      the new id is set to a queued record holding the whole body, and the
      reply is 202 with the id; no other entry changes. */
  function Evaluate(server: Server, body: Json, jobId: JobId, now: string): (out: Served)
    requires IsUuid(jobId)
    ensures !Accepts(body) ==>
              out == Served(server, ErrorReply(400, EvaluateMissingMessage))
    ensures Accepts(body) ==>
              && body.JObj?
              && out.reply == Reply(202, Some(JObj(map["job_id" := JStr(jobId), "status" := JStr("queued")])))
              && out.server.queue == server.queue
                   + [QueuedJob(body.fields["job_title"],
                                JobData(body.fields["job_title"], body.fields["cv_id"], body.fields["report_id"]),
                                jobId)]
              && jobId in out.server.store
              && out.server.store[jobId].status == Queued
              && out.server.store[jobId].id == Some(jobId)
              && out.server.store[jobId].data == Some(body)
    ensures forall k :: k != jobId ==>
              (k in out.server.store <==> k in server.store)
              && (k in server.store ==> out.server.store[k] == server.store[k])
    ensures StoreInvariant(server.store) ==> StoreInvariant(out.server.store)
  {
    if !Accepts(body) then
      Served(server, ErrorReply(400, EvaluateMissingMessage))
    else
      var f := body.fields;
      var job := QueuedJob(f["job_title"], JobData(f["job_title"], f["cv_id"], f["report_id"]), jobId);
      var store := server.store[jobId := QueuedRecord(jobId, f, now)];
      Served(Server(store, server.queue + [job]),
             Reply(202, Some(JObj(map["job_id" := JStr(jobId), "status" := JStr("queued")]))))
  }

  // ---------------------------------------------------------------------
  // GET /result/:id
  // ---------------------------------------------------------------------

  const NotFoundMessage: string := "Job not found"

  /** `GET /result/:id` with the store read as a map: 404 exactly when no job
      is stored under `id`, otherwise 200 with a body from which the stored
      record reads back unchanged. */
  function Lookup(store: Store, id: string): (reply: Reply)
    ensures reply.status == 200 <==> id in store
    ensures id !in store ==> reply == ErrorReply(404, NotFoundMessage)
    ensures id in store ==> reply.body.Some? && RecordOf(reply.body.value) == Some(store[id])
  {
    if id in store then
      RecordRoundTrip(store[id]);
      Reply(200, Some(RecordJson(store[id])))
    else
      ErrorReply(404, NotFoundMessage)
  }

  /** What `res.json` sends for an inherited property: `Object.prototype`
      serialises as `{}`; the other inherited properties are functions,
      which `JSON.stringify` turns into `undefined`, so no body is sent. */
  function InheritedBody(name: string): Option<Json>
  {
    if name == "__proto__" then Some(JObj(map[])) else None
  }

  /** `GET /result/:id` as written (index.js:72-81): `jobResults` is a plain
      object, so `jobResults[id]` also finds the properties every object
      inherits, and those are truthy. The route answers 200 for them although
      no job has that id; for stored ids and other names it agrees with
      `Lookup`. */
  function LookupAsWritten(store: Store, id: string): (reply: Reply)
    ensures reply.status == 200 <==> id in store || id in InheritedNames
    ensures id in store || id !in InheritedNames ==> reply == Lookup(store, id)
  {
    if id in store then Reply(200, Some(RecordJson(store[id])))
    else if id in InheritedNames then Reply(200, InheritedBody(id))
    else ErrorReply(404, NotFoundMessage)
  }

  /** On an empty store, `GET /result/constructor` is answered 200 with no
      body, where 404 "Job not found" is intended. */
  lemma LookupAsWrittenFindsConstructor()
    ensures LookupAsWritten(map[], "constructor") == Reply(200, None)
    ensures Lookup(map[], "constructor") == ErrorReply(404, NotFoundMessage)
  {
  }

  /** Every inherited name that is not a job id gets a reply that differs
      from the intended one. */
  lemma LookupAsWrittenDiffers(store: Store, id: string)
    requires id in InheritedNames && id !in store
    ensures LookupAsWritten(store, id).status == 200
    ensures Lookup(store, id).status == 404
  {
  }

  // ---------------------------------------------------------------------
  // The routes together
  // ---------------------------------------------------------------------

  /** The body a client sends to `POST /evaluate` with the ids an upload
      returned. */
  function EvaluateBody(title: Json, uploaded: Reply): Json
    requires uploaded.status == 200 && uploaded.body.Some? && uploaded.body.value.JObj?
  {
    var f := uploaded.body.value.fields;
    JObj(map["job_title" := title]
         + (if "cv_id" in f then map["cv_id" := f["cv_id"]] else map[])
         + (if "report_id" in f then map["report_id" := f["report_id"]] else map[]))
  }

  /** After a successful upload, an evaluation request built from its reply
      is accepted exactly when the title is truthy and both stored file names
      are non-empty; the queued payload then carries the names as strings,
      so the worker can build both upload paths. */
  lemma UploadThenEvaluate(files: Option<map<string, seq<string>>>, title: Json,
                           server: Server, jobId: JobId, now: string)
    requires IsUuid(jobId)
    requires Upload(files).status == 200
    ensures var out := Evaluate(server, EvaluateBody(title, Upload(files)), jobId, now);
            && (out.reply.status == 202 <==>
                  Truthy(Some(title)) && files.value["cv"][0] != "" && files.value["report"][0] != "")
            && (out.reply.status == 202 ==>
                  var data := out.server.queue[|out.server.queue| - 1].data;
                  data.cvId == JStr(files.value["cv"][0])
                  && data.reportId == JStr(files.value["report"][0]))
  {
  }

  /** Right after an accepted evaluation request, its id reads back as a
      queued job holding the request body. */
  lemma EvaluateThenLookup(server: Server, body: Json, jobId: JobId, now: string)
    requires IsUuid(jobId)
    requires Accepts(body)
    ensures var out := Evaluate(server, body, jobId, now);
            var reply := Lookup(out.server.store, jobId);
            && reply.status == 200
            && RecordOf(reply.body.value) == Some(QueuedRecord(jobId, body.fields, now))
  {
  }
}

=== FILE: jobs.dfy ===
/** Job records and the in-memory job store `jobResults` (worker.js:18),
    shared by the HTTP handlers and the worker. */
module Jobs {
  import opened Outcomes
  import opened JsonValues

  /** The identifier BullMQ and the store use for a job (a uuid string). */
  type JobId = string

  datatype Status = Queued | Processing | Completed | Failed

  /** The `status` string a record carries. */
  function StatusName(s: Status): string
  {
    match s
    case Queued => "queued"
    case Processing => "processing"
    case Completed => "completed"
    case Failed => "failed"
  }

  predicate Terminal(s: Status)
  {
    s == Completed || s == Failed
  }

  /** The queued job's payload `{job_title, cv_id, report_id}`. */
  datatype JobData = JobData(jobTitle: Json, cvId: Json, reportId: Json)

  function JobDataJson(d: JobData): Json
  {
    JObj(map["job_title" := d.jobTitle, "cv_id" := d.cvId, "report_id" := d.reportId])
  }

  /** A store entry as a JavaScript object: a field that the code does not set
      is absent (`None`). */
  datatype JobRecord = JobRecord(
    id: Option<JobId>,
    status: Status,
    data: Option<Json>,
    createdAt: Option<string>,
    result: Option<Json>,
    error: Option<string>)

  /** `{id, status: "queued", data: req.body, createdAt}` (index.js:62-67). */
  function QueuedRecord(id: JobId, body: map<string, Json>, now: string): JobRecord
  {
    JobRecord(Some(id), Queued, Some(JObj(body)), Some(now), None, None)
  }

  /** `{status: "processing", data}` (worker.js:71). */
  function ProcessingRecord(data: JobData): JobRecord
  {
    JobRecord(None, Processing, Some(JobDataJson(data)), None, None, None)
  }

  /** `{status: "completed", result}` (worker.js:145). */
  function CompletedRecord(result: Json): JobRecord
  {
    JobRecord(None, Completed, None, None, Some(result), None)
  }

  /** `{status: "failed", error: error.message}` (worker.js:149). */
  function FailedRecord(message: string): JobRecord
  {
    JobRecord(None, Failed, None, None, None, Some(message))
  }

  /** The fields each kind of record carries, exactly. */
  predicate WellFormed(r: JobRecord)
  {
    match r.status
    case Queued =>
      r.id.Some? && r.data.Some? && r.createdAt.Some? && r.result.None? && r.error.None?
    case Processing =>
      r.id.None? && r.data.Some? && r.createdAt.None? && r.result.None? && r.error.None?
    case Completed =>
      r.id.None? && r.data.None? && r.createdAt.None? && r.result.Some? && r.error.None?
    case Failed =>
      r.id.None? && r.data.None? && r.createdAt.None? && r.result.None? && r.error.Some?
  }

  /** A well-formed record never carries both a result and an error, carries
      neither before it is terminal, and carries a result exactly when it has
      completed and an error exactly when it has failed. */
  lemma WellFormedResultXorError(r: JobRecord)
    requires WellFormed(r)
    ensures !(r.result.Some? && r.error.Some?)
    ensures !Terminal(r.status) ==> r.result.None? && r.error.None?
    ensures r.result.Some? <==> r.status == Completed
    ensures r.error.Some? <==> r.status == Failed
  {
  }

  type Store = map<JobId, JobRecord>

  /** Every entry is well formed, and a record that names its id is stored
      under that id. */
  predicate StoreInvariant(store: Store)
  {
    forall id :: id in store ==>
      WellFormed(store[id]) && (store[id].id.Some? ==> store[id].id.value == id)
  }
}

=== FILE: jsstring.dfy ===
/** The JavaScript string operations the worker relies on, on strings of
    characters: global replacement of a literal pattern, `trim`,
    `substring` and `Array.prototype.join`. */
module JsString {

  /** `pat` occurs in `s` starting at index `i`. */
  predicate OccursAt(s: string, pat: string, i: int)
  {
    0 <= i && i + |pat| <= |s| && s[i..i + |pat|] == pat
  }

  predicate Occurs(s: string, pat: string)
  {
    exists i :: 0 <= i <= |s| && OccursAt(s, pat, i)
  }

  /** Occurrences in `[c] + t` past its first position are occurrences in `t`. */
  lemma ConsOccurrences(c: char, t: string, pat: string)
    requires !Occurs(t, pat)
    requires !OccursAt([c] + t, pat, 0)
    ensures !Occurs([c] + t, pat)
  {
    var s := [c] + t;
    forall i | 0 < i <= |s|
      ensures !OccursAt(s, pat, i)
    {
      if i + |pat| <= |s| {
        assert s[i..i + |pat|] == t[i - 1..i - 1 + |pat|];
        assert !OccursAt(t, pat, i - 1);
      }
    }
  }

  /** A slice of a string without the pattern is without it too. */
  lemma NoOccurrenceInSlice(s: string, pat: string, a: nat, b: nat)
    requires a <= b <= |s|
    requires !Occurs(s, pat)
    ensures !Occurs(s[a..b], pat)
  {
    var t := s[a..b];
    forall i | 0 <= i <= |t|
      ensures !OccursAt(t, pat, i)
    {
      if i + |pat| <= |t| {
        SliceOfSlice(s, a, b, i, i + |pat|);
        assert t[i..i + |pat|] == s[a + i..a + i + |pat|];
        assert !OccursAt(s, pat, a + i);
      }
    }
  }

  lemma SliceOfSlice(s: string, a: nat, b: nat, i: nat, j: nat)
    requires a <= b <= |s| && i <= j <= b - a
    ensures s[a..b][i..j] == s[a + i..a + j]
  {
    var x := s[a..b][i..j];
    var y := s[a + i..a + j];
    assert |x| == |y|;
    forall k | 0 <= k < |x| ensures x[k] == y[k] {
      assert x[k] == s[a..b][i + k] == s[a + i + k];
    }
  }

  /** Trimming cannot create an occurrence. */
  lemma TrimKeepsAbsence(s: string, pat: string)
    requires !Occurs(s, pat)
    ensures !Occurs(Trim(s), pat)
  {
    var a, b :| 0 <= a <= b <= |s| && Trim(s) == s[a..b];
    NoOccurrenceInSlice(s, pat, a, b);
  }

  // ---------------------------------------------------------------------
  // Global replacement
  // ---------------------------------------------------------------------

  /** `s.replace(/pat/g, rep)` for a pattern without regular-expression
      metacharacters: scan left to right, replace the leftmost match, resume
      scanning after it (matches never overlap), keep every other character. */
  function ReplaceAll(s: string, pat: string, rep: string): (r: string)
    requires |pat| > 0
    ensures forall c :: c in r ==> c in s || c in rep
    ensures rep == [] ==> |r| <= |s|
    decreases |s|
  {
    if |s| < |pat| then s
    else if s[..|pat|] == pat then rep + ReplaceAll(s[|pat|..], pat, rep)
    else [s[0]] + ReplaceAll(s[1..], pat, rep)
  }

  /** Occurrences in a suffix are occurrences in the whole, shifted. */
  lemma OccursInTail(s: string, pat: string, k: nat)
    requires k <= |s|
    ensures forall i :: OccursAt(s[k..], pat, i) ==> OccursAt(s, pat, i + k)
  {
    forall i | OccursAt(s[k..], pat, i)
      ensures OccursAt(s, pat, i + k)
    {
      assert s[k..][i..i + |pat|] == s[i + k..i + k + |pat|];
    }
  }

  /** A string in which the pattern never occurs is left unchanged. */
  lemma {:induction false} ReplaceAllAbsent(s: string, pat: string, rep: string)
    requires |pat| > 0
    requires !Occurs(s, pat)
    ensures ReplaceAll(s, pat, rep) == s
    decreases |s|
  {
    if |s| < |pat| {
    } else {
      assert !OccursAt(s, pat, 0);
      assert s[..|pat|] == s[0..0 + |pat|];
      OccursInTail(s, pat, 1);
      ReplaceAllAbsent(s[1..], pat, rep);
      assert [s[0]] + s[1..] == s;
    }
  }

  /** A prefix that does not contain the pattern's first character is copied
      through untouched and scanning resumes right after it. */
  lemma {:induction false} ReplaceAllSkipsPrefix(x: string, y: string, pat: string, rep: string)
    requires |pat| > 0
    requires pat[0] !in x
    ensures ReplaceAll(x + y, pat, rep) == x + ReplaceAll(y, pat, rep)
    decreases |x|
  {
    if |x| == 0 {
      assert x + y == y;
    } else if |x + y| < |pat| {
      assert ReplaceAll(y, pat, rep) == y;
    } else {
      assert (x + y)[0] == x[0] != pat[0];
      assert (x + y)[..|pat|] != pat;
      assert (x + y)[1..] == x[1..] + y;
      ReplaceAllSkipsPrefix(x[1..], y, pat, rep);
      assert [x[0]] + x[1..] == x;
    }
  }

  /** A character the pattern does not contain splits a global replace: no
      match can span it, so a pattern-free text before it is copied through
      and replacing resumes right after it. */
  lemma {:induction false} ReplaceAllBeforeBreak(x: string, c: char, y: string, pat: string, rep: string)
    requires |pat| > 0
    requires c !in pat && !Occurs(x, pat)
    ensures ReplaceAll(x + [c] + y, pat, rep) == x + [c] + ReplaceAll(y, pat, rep)
    decreases |x|
  {
    var s := x + [c] + y;
    if x == [] {
      assert s == [c] + y;
      ReplaceAllSkipsPrefix([c], y, pat, rep);
    } else if |s| < |pat| {
      assert ReplaceAll(y, pat, rep) == y;
    } else {
      assert s[..|pat|] != pat by {
        if |pat| <= |x| {
          assert s[..|pat|] == x[0..0 + |pat|];
          assert !OccursAt(x, pat, 0);
        } else {
          assert s[..|pat|][|x|] == c;
          assert pat[|x|] in pat;
        }
      }
      assert s[1..] == x[1..] + [c] + y;
      OccursInTail(x, pat, 1);
      ReplaceAllBeforeBreak(x[1..], c, y, pat, rep);
      assert [x[0]] + x[1..] == x;
    }
  }

  // ---------------------------------------------------------------------
  // trim
  // ---------------------------------------------------------------------

  /** The characters `String.prototype.trim` removes: ECMAScript WhiteSpace
      (tab, vertical tab, form feed, space, no-break space, the byte order
      mark and every Unicode space separator) and LineTerminator (line feed,
      carriage return, line and paragraph separator). */
  predicate IsWhitespace(c: char)
  {
    || c == '\t' || c == '\n' || c == '\U{000B}' || c == '\U{000C}' || c == '\r'
    || c == ' ' || c == '\U{00A0}' || c == '\U{1680}'
    || ('\U{2000}' <= c <= '\U{200A}')
    || c == '\U{2028}' || c == '\U{2029}' || c == '\U{202F}' || c == '\U{205F}'
    || c == '\U{3000}' || c == '\U{FEFF}'
  }

  predicate AllWhitespace(s: string)
  {
    forall i :: 0 <= i < |s| ==> IsWhitespace(s[i])
  }

  /** Neither end of `s` is whitespace. */
  predicate Trimmed(s: string)
  {
    s == [] || (!IsWhitespace(s[0]) && !IsWhitespace(s[|s| - 1]))
  }

  /** Drops the longest whitespace prefix. */
  function TrimStart(s: string): (r: string)
    ensures |r| <= |s| && r == s[|s| - |r|..]
    ensures AllWhitespace(s[..|s| - |r|])
    ensures r == [] || !IsWhitespace(r[0])
    decreases |s|
  {
    if |s| > 0 && IsWhitespace(s[0]) then
      var r := TrimStart(s[1..]);
      TrimStartStep(s, r);
      r
    else s
  }

  lemma TrimStartStep(s: string, r: string)
    requires |s| > 0 && IsWhitespace(s[0])
    requires |r| <= |s| - 1 && r == s[1..][|s| - 1 - |r|..]
    requires AllWhitespace(s[1..][..|s| - 1 - |r|])
    ensures r == s[|s| - |r|..]
    ensures AllWhitespace(s[..|s| - |r|])
  {
    var k := |s| - |r|;
    assert s[1..][k - 1..] == s[k..];
    forall i | 0 <= i < k
      ensures IsWhitespace(s[..k][i])
    {
      if i > 0 {
        assert s[..k][i] == s[1..][..k - 1][i - 1];
      }
    }
  }

  /** Drops the longest whitespace suffix. */
  function TrimEnd(s: string): (r: string)
    ensures |r| <= |s| && r == s[..|r|]
    ensures AllWhitespace(s[|r|..])
    ensures r == [] || !IsWhitespace(r[|r| - 1])
    decreases |s|
  {
    if |s| > 0 && IsWhitespace(s[|s| - 1]) then
      var r := TrimEnd(s[..|s| - 1]);
      TrimEndStep(s, r);
      r
    else s
  }

  lemma TrimEndStep(s: string, r: string)
    requires |s| > 0 && IsWhitespace(s[|s| - 1])
    requires |r| <= |s| - 1 && r == s[..|s| - 1][..|r|]
    requires AllWhitespace(s[..|s| - 1][|r|..])
    ensures r == s[..|r|]
    ensures AllWhitespace(s[|r|..])
  {
    var k := |r|;
    assert s[..|s| - 1][..k] == s[..k];
    forall i | 0 <= i < |s| - k
      ensures IsWhitespace(s[k..][i])
    {
      if i < |s| - 1 - k {
        assert s[k..][i] == s[..|s| - 1][k..][i];
      }
    }
  }

  /** `s.trim()`: the slice `s[a..b]` obtained by dropping whitespace at both
      ends; the slice itself starts and ends with non-whitespace (or is empty). */
  function Trim(s: string): (r: string)
    ensures Trimmed(r)
    ensures exists a, b :: 0 <= a <= b <= |s| && r == s[a..b]
                           && AllWhitespace(s[..a]) && AllWhitespace(s[b..])
  {
    var t := TrimStart(s);
    var r := TrimEnd(t);
    TrimmedEnds(t, r);
    SliceWitness(s, t, r);
    r
  }

  lemma TrimmedEnds(t: string, r: string)
    requires t == [] || !IsWhitespace(t[0])
    requires |r| <= |t| && r == t[..|r|]
    requires r == [] || !IsWhitespace(r[|r| - 1])
    ensures Trimmed(r)
  {
    if r != [] {
      assert r[0] == t[0];
    }
  }

  lemma SliceWitness(s: string, t: string, r: string)
    requires |t| <= |s| && t == s[|s| - |t|..] && AllWhitespace(s[..|s| - |t|])
    requires |r| <= |t| && r == t[..|r|] && AllWhitespace(t[|r|..])
    ensures exists a, b :: 0 <= a <= b <= |s| && r == s[a..b]
                           && AllWhitespace(s[..a]) && AllWhitespace(s[b..])
  {
    var a := |s| - |t|;
    var b := a + |r|;
    PrefixOfSuffix(s, t, r);
    assert 0 <= a <= b <= |s| && r == s[a..b] && AllWhitespace(s[..a]) && AllWhitespace(s[b..]);
  }

  /** A prefix `r` of a suffix `t` of `s` is the slice of `s` where it sits,
      and what follows it in `t` is what follows that slice in `s`. */
  lemma PrefixOfSuffix(s: string, t: string, r: string)
    requires |t| <= |s| && t == s[|s| - |t|..]
    requires |r| <= |t| && r == t[..|r|]
    ensures r == s[|s| - |t|..|s| - |t| + |r|]
    ensures s[|s| - |t| + |r|..] == t[|r|..]
  {
    SliceOfSlice(s, |s| - |t|, |s|, 0, |r|);
    SliceOfSlice(s, |s| - |t|, |s|, |r|, |t|);
  }

  /** Whitespace in front of a string that starts with non-whitespace is
      exactly what `TrimStart` removes. */
  lemma {:induction false} TrimStartAfterWhitespace(w: string, x: string)
    requires AllWhitespace(w)
    requires x != [] && !IsWhitespace(x[0])
    ensures TrimStart(w + x) == x
    decreases |w|
  {
    if w == [] {
      assert w + x == x;
    } else {
      assert (w + x)[0] == w[0];
      assert (w + x)[1..] == w[1..] + x;
      TrimStartAfterWhitespace(w[1..], x);
    }
  }

  /** Whitespace after a string that ends with non-whitespace is exactly what
      `TrimEnd` removes. */
  lemma {:induction false} TrimEndBeforeWhitespace(x: string, w: string)
    requires AllWhitespace(w)
    requires x != [] && !IsWhitespace(x[|x| - 1])
    ensures TrimEnd(x + w) == x
    decreases |w|
  {
    if w == [] {
      assert x + w == x;
    } else {
      var s := x + w;
      assert s[|s| - 1] == w[|w| - 1];
      assert s[..|s| - 1] == x + w[..|w| - 1];
      TrimEndBeforeWhitespace(x, w[..|w| - 1]);
    }
  }

  /** Trimming is determined by its result: a non-empty, trimmed core
      surrounded by whitespace is exactly what `trim` returns. */
  lemma TrimSurrounded(w: string, core: string, w': string)
    requires AllWhitespace(w) && AllWhitespace(w')
    requires core != [] && Trimmed(core)
    ensures Trim(w + core + w') == core
  {
    assert w + core + w' == w + (core + w');
    TrimStartAfterWhitespace(w, core + w');
    TrimEndBeforeWhitespace(core, w');
  }

  /** A string with no whitespace at either end is its own trim. */
  lemma TrimOfTrimmed(s: string)
    requires Trimmed(s)
    ensures Trim(s) == s
  {
    if s == [] {
      assert TrimStart(s) == [];
      assert TrimEnd(TrimStart(s)) == [];
    } else {
      var e: string := [];
      assert AllWhitespace(e);
      assert e + s + e == s;
      TrimSurrounded(e, s, e);
    }
  }

  // ---------------------------------------------------------------------
  // substring
  // ---------------------------------------------------------------------

  function Clamp(x: int, n: nat): (r: nat)
    ensures r <= n
  {
    if x < 0 then 0 else if x > n then n else x
  }

  /** `s.substring(start, end)`: both indices are clamped into `[0, |s|]`
      and swapped when `start > end`. */
  function Substring(s: string, start: int, end: int): (r: string)
    ensures |r| == Distance(Clamp(start, |s|), Clamp(end, |s|))
    ensures OccursAt(s, r, Lower(Clamp(start, |s|), Clamp(end, |s|)))
  {
    var from := Clamp(start, |s|);
    var to := Clamp(end, |s|);
    if from <= to then s[from..to] else s[to..from]
  }

  function Distance(a: int, b: int): nat
  {
    if a <= b then b - a else a - b
  }

  function Lower(a: int, b: int): int
  {
    if a <= b then a else b
  }

  /** The two indices of `substring` may come in either order. */
  lemma SubstringSwap(s: string, start: int, end: int)
    ensures Substring(s, start, end) == Substring(s, end, start)
  {
  }

  /** A negative index acts as 0, and an index past the end acts as the length. */
  lemma SubstringClamps(s: string, start: int, end: int)
    ensures start < 0 ==> Substring(s, start, end) == Substring(s, 0, end)
    ensures end > |s| ==> Substring(s, start, end) == Substring(s, start, |s|)
  {
  }

  /** `substring(0, n)` is the longest prefix of at most `n` characters, and
      a full-length range gives the whole string back. */
  lemma SubstringPrefix(s: string, n: int)
    ensures var r := Substring(s, 0, n);
            |r| == Clamp(n, |s|) && r == s[..|r|]
    ensures n >= |s| ==> Substring(s, 0, n) == s
  {
    var r := Substring(s, 0, n);
    assert s[0..|r|] == s[..|r|];
  }

  // ---------------------------------------------------------------------
  // join
  // ---------------------------------------------------------------------

  /** `parts.join(sep)`: an empty array gives the empty string, one element
      gives itself, and consecutive elements are separated by `sep`. */
  function Join(parts: seq<string>, sep: string): string
  {
    if |parts| == 0 then ""
    else if |parts| == 1 then parts[0]
    else parts[0] + sep + Join(parts[1..], sep)
  }

  /** Where the `i`-th part starts in `Join(parts, sep)`. */
  function Offset(parts: seq<string>, sep: string, i: nat): nat
    requires i <= |parts|
  {
    if i == 0 then 0 else Offset(parts, sep, i - 1) + |parts[i - 1]| + |sep|
  }

  lemma {:induction false} OffsetShift(parts: seq<string>, sep: string, i: nat)
    requires 0 < |parts| && i < |parts|
    ensures Offset(parts, sep, i + 1) == |parts[0]| + |sep| + Offset(parts[1..], sep, i)
  {
    if i > 0 {
      OffsetShift(parts, sep, i - 1);
    }
  }

  /** An occurrence in `y` is an occurrence in `x + y`, shifted by `|x|`. */
  lemma ShiftRight(x: string, y: string, pat: string, o: int)
    requires OccursAt(y, pat, o)
    ensures OccursAt(x + y, pat, |x| + o)
  {
    assert (x + y)[|x| + o..|x| + o + |pat|] == y[o..o + |pat|];
  }

  /** A string sits in a concatenation right after the part before it. */
  lemma LastPiece(x: string, y: string)
    ensures OccursAt(x + y, y, |x|)
  {
    assert (x + y)[|x|..|x| + |y|] == y;
  }

  /** An occurrence survives appending text after it. */
  lemma Extend(s: string, t: string, pat: string, i: int)
    requires OccursAt(s, pat, i)
    ensures OccursAt(s + t, pat, i)
  {
    assert (s + t)[i..i + |pat|] == s[i..i + |pat|];
  }

  /** The `i`-th part sits verbatim at its offset. */
  lemma {:induction false} JoinPart(parts: seq<string>, sep: string, i: nat)
    requires i < |parts|
    ensures OccursAt(Join(parts, sep), parts[i], Offset(parts, sep, i))
    decreases i
  {
    if i == 0 {
      assert parts[0][0..|parts[0]|] == parts[0];
      if |parts| > 1 {
        assert Join(parts, sep) == parts[0] + (sep + Join(parts[1..], sep));
        Extend(parts[0], sep + Join(parts[1..], sep), parts[0], 0);
      }
    } else {
      var rest := parts[1..];
      assert Join(parts, sep) == (parts[0] + sep) + Join(rest, sep);
      JoinPart(rest, sep, i - 1);
      OffsetShift(parts, sep, i - 1);
      assert rest[i - 1] == parts[i];
      ShiftRight(parts[0] + sep, Join(rest, sep), parts[i], Offset(rest, sep, i - 1));
    }
  }

  /** The separator follows the `i`-th part whenever another part comes next. */
  lemma {:induction false} JoinSeparator(parts: seq<string>, sep: string, i: nat)
    requires i + 1 < |parts|
    ensures OccursAt(Join(parts, sep), sep, Offset(parts, sep, i) + |parts[i]|)
    decreases i
  {
    var rest := parts[1..];
    assert Join(parts, sep) == (parts[0] + sep) + Join(rest, sep);
    if i == 0 {
      LastPiece(parts[0], sep);
      Extend(parts[0] + sep, Join(rest, sep), sep, |parts[0]|);
    } else {
      JoinSeparator(rest, sep, i - 1);
      OffsetShift(parts, sep, i - 1);
      assert rest[i - 1] == parts[i];
      ShiftRight(parts[0] + sep, Join(rest, sep), sep, Offset(rest, sep, i - 1) + |parts[i]|);
    }
  }

  /** Nothing follows the last part. */
  lemma {:induction false} JoinLength(parts: seq<string>, sep: string)
    requires |parts| > 0
    ensures |Join(parts, sep)| == Offset(parts, sep, |parts| - 1) + |parts[|parts| - 1]|
    decreases |parts|
  {
    if |parts| > 1 {
      var rest := parts[1..];
      assert Join(parts, sep) == parts[0] + sep + Join(rest, sep);
      JoinLength(rest, sep);
      OffsetShift(parts, sep, |parts| - 2);
      assert rest[|rest| - 1] == parts[|parts| - 1];
    }
  }
}

=== FILE: lifecycle.dfy ===
/** A job's life in the one process where the API routes and the worker
    share `jobResults`: `POST /evaluate` enqueues the job and then seeds its
    `queued` record (index.js:55-67); the worker writes
    `processing` and then a terminal record (worker.js:71, 145, 149).

    Neither side checks what is already stored, so the statuses a job goes
    through depend on the order in which the writes land. Under the
    sequential schedule (the seed lands before the worker starts) the
    statuses advance `queued`, `processing`, then `completed` or `failed`.
    When the worker's writes land before the seed, the job goes back to
    `queued`; that schedule is modelled as it is, not repaired. */
module Lifecycle {
  import opened Outcomes
  import opened JsonValues
  import opened Jobs
  import opened Pipeline
  import opened Api

  /** The transitions the job states are meant to take: `queued` to
      `processing`, and `processing` to `completed` or `failed`. */
  predicate Advances(a: Status, b: Status)
  {
    (a == Queued && b == Processing) || (a == Processing && Terminal(b))
  }

  /** Every status in the trace is followed by one it may advance to. */
  predicate Monotone(trace: seq<Status>)
  {
    forall i :: 0 <= i < |trace| - 1 ==> Advances(trace[i], trace[i + 1])
  }

  /** A store write: the job id and the whole record put under it. */
  datatype StoreWrite = StoreWrite(id: JobId, record: JobRecord)

  /** The store writes among the handler's effects, in order. */
  function Writes(effects: seq<Effect>): (ws: seq<StoreWrite>)
    ensures |ws| <= |effects|
  {
    if effects == [] then []
    else
      var rest := Writes(effects[1..]);
      match effects[0]
      case Write(id, record) => [StoreWrite(id, record)] + rest
      case Invoke(_) => rest
  }

  lemma {:induction false} WritesAppend(a: seq<Effect>, b: seq<Effect>)
    ensures Writes(a + b) == Writes(a) + Writes(b)
    decreases |a|
  {
    if a == [] {
      assert a + b == b;
    } else {
      assert (a + b)[1..] == a[1..] + b;
      WritesAppend(a[1..], b);
    }
  }

  lemma {:induction false} InvocationsWriteNothing(calls: seq<Call>)
    ensures Writes(Invocations(calls)) == []
    decreases |calls|
  {
    if calls != [] {
      assert Invocations(calls)[1..] == Invocations(calls[1..]);
      InvocationsWriteNothing(calls[1..]);
    }
  }

  /** One run of the handler writes to the store exactly twice, both times
      under its own job id: `processing` first, the terminal record last;
      every service call falls between the two. */
  lemma HandleWrites(env: Env, id: JobId, data: JobData)
    ensures Writes(Handle(env, id, data))
            == [StoreWrite(id, ProcessingRecord(data)),
                StoreWrite(id, FinalRecord(RunStages(env, data).outcome))]
  {
    var run := RunStages(env, data);
    var first := [Write(id, ProcessingRecord(data))];
    var last := [Write(id, FinalRecord(run.outcome))];
    WritesAppend(first + Invocations(run.calls), last);
    WritesAppend(first, Invocations(run.calls));
    InvocationsWriteNothing(run.calls);
  }

  /** Putting the writes into the store, last writer wins. */
  function Apply(store: Store, ws: seq<StoreWrite>): (s: Store)
    ensures forall k :: (k in s <==> k in store || exists i :: 0 <= i < |ws| && ws[i].id == k)
    decreases |ws|
  {
    if ws == [] then store
    else
      var s := Apply(store[ws[0].id := ws[0].record], ws[1..]);
      assert forall i :: 0 < i < |ws| ==> ws[1..][i - 1] == ws[i];
      s
  }

  /** The statuses written under `id`, in order. */
  function Trace(id: JobId, ws: seq<StoreWrite>): (t: seq<Status>)
    ensures |t| <= |ws|
  {
    if ws == [] then []
    else (if ws[0].id == id then [ws[0].record.status] else []) + Trace(id, ws[1..])
  }

  /** Three writes under one id trace their three statuses. */
  lemma TraceOfThree(id: JobId, a: JobRecord, b: JobRecord, c: JobRecord)
    ensures Trace(id, [StoreWrite(id, a), StoreWrite(id, b), StoreWrite(id, c)])
            == [a.status, b.status, c.status]
  {
    var ws := [StoreWrite(id, a), StoreWrite(id, b), StoreWrite(id, c)];
    assert ws[1..] == [StoreWrite(id, b), StoreWrite(id, c)];
    assert ws[1..][1..] == [StoreWrite(id, c)];
    assert ws[1..][1..][1..] == [];
    assert Trace(id, ws[1..][1..]) == [c.status];
    assert Trace(id, ws[1..]) == [b.status, c.status];
  }

  /** Three writes under one id leave the last record there. */
  lemma ApplyOfThree(store: Store, id: JobId, a: JobRecord, b: JobRecord, c: JobRecord)
    ensures Apply(store, [StoreWrite(id, a), StoreWrite(id, b), StoreWrite(id, c)]) == store[id := c]
  {
    var ws := [StoreWrite(id, a), StoreWrite(id, b), StoreWrite(id, c)];
    assert ws[1..] == [StoreWrite(id, b), StoreWrite(id, c)];
    assert ws[1..][1..] == [StoreWrite(id, c)];
    assert ws[1..][1..][1..] == [];
    assert Apply(store[id := a][id := b], ws[1..][1..]) == store[id := a][id := b][id := c];
    assert Apply(store[id := a], ws[1..]) == store[id := a][id := b][id := c];
    assert store[id := a][id := b][id := c] == store[id := c];
  }

  /** The writes of the sequential schedule: the seed, then the worker's. */
  function Sequential(jobId: JobId, seed: JobRecord, worker: seq<StoreWrite>): seq<StoreWrite>
  {
    [StoreWrite(jobId, seed)] + worker
  }

  /** The writes when the whole worker run lands before the seed. */
  function SeedLast(jobId: JobId, seed: JobRecord, worker: seq<StoreWrite>): seq<StoreWrite>
  {
    worker + [StoreWrite(jobId, seed)]
  }

  /** The request body and the job the worker takes for it, when `POST
      /evaluate` accepted the body. */
  function Enqueued(server: Server, body: Json, jobId: JobId, now: string): (job: QueuedJob)
    requires IsUuid(jobId) && Accepts(body)
    ensures job.jobId == jobId
  {
    var out := Evaluate(server, body, jobId, now);
    out.server.queue[|out.server.queue| - 1]
  }

  /** Under the sequential schedule an accepted job goes `queued`,
      `processing`, then `completed` or `failed`, and never back; every
      record stored along the way keeps the store invariant; the job ends
      holding the handler's final record, and every other job is untouched. */
  lemma SequentialLifecycle(server: Server, body: Json, jobId: JobId, now: string, env: Env)
    requires IsUuid(jobId) && Accepts(body)
    requires StoreInvariant(server.store)
    ensures var out := Evaluate(server, body, jobId, now);
            var job := Enqueued(server, body, jobId, now);
            var ws := Sequential(jobId, out.server.store[jobId], Writes(Handle(env, jobId, job.data)));
            var final := Apply(server.store, ws);
            && Trace(jobId, ws) == [Queued, Processing, FinalRecord(RunStages(env, job.data).outcome).status]
            && Monotone(Trace(jobId, ws))
            && (forall i :: 0 <= i <= |ws| ==> StoreInvariant(Apply(server.store, ws[..i])))
            && StoreInvariant(final)
            && jobId in final
            && final[jobId] == FinalRecord(RunStages(env, job.data).outcome)
            && forall k :: k in server.store && k != jobId ==> k in final && final[k] == server.store[k]
  {
    var out := Evaluate(server, body, jobId, now);
    var job := Enqueued(server, body, jobId, now);
    var seed := out.server.store[jobId];
    var fin := FinalRecord(RunStages(env, job.data).outcome);
    HandleWrites(env, jobId, job.data);
    var ws := Sequential(jobId, seed, Writes(Handle(env, jobId, job.data)));
    assert ws == [StoreWrite(jobId, seed), StoreWrite(jobId, ProcessingRecord(job.data)),
                  StoreWrite(jobId, fin)];
    TraceOfThree(jobId, seed, ProcessingRecord(job.data), fin);
    FinalRecordWellFormed(RunStages(env, job.data).outcome);
    var final := Apply(server.store, ws);
    ApplyOfThree(server.store, jobId, seed, ProcessingRecord(job.data), fin);
    InvariantAfterWrite(server.store, jobId, fin);
    ThreeWritesKeepInvariant(server.store, jobId, seed, ProcessingRecord(job.data), fin);
  }

  /** Three well-formed writes under one id keep the store invariant after
      each of them. */
  lemma ThreeWritesKeepInvariant(store: Store, id: JobId, a: JobRecord, b: JobRecord, c: JobRecord)
    requires StoreInvariant(store)
    requires WellFormed(a) && (a.id.Some? ==> a.id.value == id)
    requires WellFormed(b) && (b.id.Some? ==> b.id.value == id)
    requires WellFormed(c) && (c.id.Some? ==> c.id.value == id)
    ensures var ws := [StoreWrite(id, a), StoreWrite(id, b), StoreWrite(id, c)];
            forall i :: 0 <= i <= |ws| ==> StoreInvariant(Apply(store, ws[..i]))
  {
    var ws := [StoreWrite(id, a), StoreWrite(id, b), StoreWrite(id, c)];
    ApplyPrefixesOfThree(store, id, a, b, c);
    forall i | 0 <= i <= |ws|
      ensures StoreInvariant(Apply(store, ws[..i]))
    {
      InvariantAfterWrite(store, id, a);
      if i == 2 {
        InvariantAfterWrite(store[id := a], id, b);
      } else if i == 3 {
        InvariantAfterWrite(store[id := a], id, b);
        InvariantAfterWrite(store[id := a][id := b], id, c);
      }
    }
  }

  /** The store after each prefix of three writes under one id. */
  lemma ApplyPrefixesOfThree(store: Store, id: JobId, a: JobRecord, b: JobRecord, c: JobRecord)
    ensures var ws := [StoreWrite(id, a), StoreWrite(id, b), StoreWrite(id, c)];
            && Apply(store, ws[..0]) == store
            && Apply(store, ws[..1]) == store[id := a]
            && Apply(store, ws[..2]) == store[id := a][id := b]
            && Apply(store, ws[..3]) == store[id := a][id := b][id := c]
  {
    var ws := [StoreWrite(id, a), StoreWrite(id, b), StoreWrite(id, c)];
    assert ws[..0] == [];
    assert ws[..1] == [StoreWrite(id, a)];
    assert ws[..1][1..] == [];
    assert Apply(store, ws[..1]) == Apply(store[id := a], []);
    assert ws[..2] == [StoreWrite(id, a), StoreWrite(id, b)];
    assert ws[..2][1..] == [StoreWrite(id, b)];
    assert [StoreWrite(id, b)][1..] == [];
    assert Apply(store[id := a], [StoreWrite(id, b)]) == Apply(store[id := a][id := b], []);
    assert Apply(store, ws[..2]) == Apply(store[id := a], [StoreWrite(id, b)]);
    assert ws[..3] == ws;
    ApplyOfThree(store, id, a, b, c);
    assert store[id := a][id := b][id := c] == store[id := c];
  }

  /** Writing a well-formed record that names no other id keeps the store
      invariant. */
  lemma InvariantAfterWrite(store: Store, id: JobId, record: JobRecord)
    requires StoreInvariant(store)
    requires WellFormed(record) && (record.id.Some? ==> record.id.value == id)
    ensures StoreInvariant(store[id := record])
  {
  }

  /** The handler's final record is a well-formed terminal record. */
  lemma FinalRecordWellFormed(outcome: Outcome<Json>)
    ensures WellFormed(FinalRecord(outcome)) && Terminal(FinalRecord(outcome).status)
    ensures FinalRecord(outcome).status == Completed <==> outcome.Ok?
  {
  }

  /** When the worker's writes land before the seed, the job is left
      `queued` for good although its run has finished, and its statuses go
      `processing`, terminal, `queued`, which moves a status backwards. */
  lemma SeedLastRegresses(server: Server, body: Json, jobId: JobId, now: string, env: Env)
    requires IsUuid(jobId) && Accepts(body)
    ensures var out := Evaluate(server, body, jobId, now);
            var job := Enqueued(server, body, jobId, now);
            var ws := SeedLast(jobId, out.server.store[jobId], Writes(Handle(env, jobId, job.data)));
            && Trace(jobId, ws) == [Processing, FinalRecord(RunStages(env, job.data).outcome).status, Queued]
            && !Monotone(Trace(jobId, ws))
            && jobId in Apply(server.store, ws)
            && Apply(server.store, ws)[jobId].status == Queued
  {
    var out := Evaluate(server, body, jobId, now);
    var job := Enqueued(server, body, jobId, now);
    var seed := out.server.store[jobId];
    var fin := FinalRecord(RunStages(env, job.data).outcome);
    HandleWrites(env, jobId, job.data);
    var ws := SeedLast(jobId, seed, Writes(Handle(env, jobId, job.data)));
    assert ws == [StoreWrite(jobId, ProcessingRecord(job.data)), StoreWrite(jobId, fin),
                  StoreWrite(jobId, seed)];
    assert ws[1..][1..][1..] == [];
    TraceOfThree(jobId, ProcessingRecord(job.data), fin, seed);
    ApplyOfThree(server.store, jobId, ProcessingRecord(job.data), fin, seed);
    FinalRecordWellFormed(RunStages(env, job.data).outcome);
    assert !Advances(Trace(jobId, ws)[1], Trace(jobId, ws)[2]);
  }

  /** A job submitted with the ids an upload returned reaches the parsing
      stages: the worker can build both upload paths, so the run does not
      fail before its first call. */
  lemma UploadedJobReachesParsing(files: Option<map<string, seq<string>>>, title: Json,
                                  server: Server, jobId: JobId, now: string, env: Env)
    requires IsUuid(jobId)
    requires Upload(files).status == 200
    requires Accepts(EvaluateBody(title, Upload(files)))
    ensures var job := Enqueued(server, EvaluateBody(title, Upload(files)), jobId, now);
            var run := RunStages(env, job.data);
            && run.calls != []
            && run.calls[0] == ParseCvCall(env.uploadPath(files.value["cv"][0]))
  {
    UploadThenEvaluate(files, title, server, jobId, now);
    StageInputs(env, Enqueued(server, EvaluateBody(title, Upload(files)), jobId, now).data);
  }
}

=== FILE: outcomes.dfy ===
/** Failure-carrying values used throughout the model.

    `Outcome` stands for a JavaScript call that either returns a value or
    throws an `Error`; the `message` is what `error.message` reads in a
    `catch` block. */
module Outcomes {

  datatype Option<+T> = None | Some(value: T)

  datatype Outcome<+T> = Ok(value: T) | Err(message: string)
}

/** The JSON values a request body, a queued job or `JSON.parse` can carry. */
module JsonValues {
  import opened Outcomes

  datatype Json =
    | JNull
    | JBool(b: bool)
    | JNum(n: real)
    | JStr(s: string)
    | JArr(items: seq<Json>)
    | JObj(fields: map<string, Json>)

  /** An object property read: a missing key is `undefined`, modelled as `None`. */
  function Field(obj: map<string, Json>, key: string): Option<Json>
  {
    if key in obj then Some(obj[key]) else None
  }

  /** JavaScript truthiness of a value that came out of `JSON.parse`
      (`NaN` cannot occur there). `undefined` is falsy. */
  predicate Truthy(v: Option<Json>)
  {
    match v
    case None => false
    case Some(JNull) => false
    case Some(JBool(b)) => b
    case Some(JNum(n)) => n != 0.0
    case Some(JStr(s)) => s != ""
    case Some(JArr(_)) => true
    case Some(JObj(_)) => true
  }

  /** The falsy values are exactly undefined, null, false, 0 and the empty string. */
  lemma FalsyValues(v: Option<Json>)
    ensures !Truthy(v) <==>
              v == None || v == Some(JNull) || v == Some(JBool(false))
              || v == Some(JNum(0.0)) || v == Some(JStr(""))
  {
  }
}

=== FILE: pdf.dfy ===
/** Text extraction from an uploaded PDF (`parsePdf`, worker.js:29-51).

    The file system check and the PDF library are parameters: `fileExists`
    stands for `fs.existsSync`, and `rawText` for pdf2json, giving the raw
    text content of a readable file or `None` when the parser reports a data
    error. */
module Pdf {
  import opened Outcomes
  import opened JsString

  const Crlf: string := "\r\n"

  /** `rawText.replace(/\r\n/g, " ")`: every CR LF pair becomes one space. */
  function NormalizeLineEndings(raw: string): string
  {
    ReplaceAll(raw, Crlf, " ")
  }

  /** The first character after normalisation: a space when the text starts
      with CR LF, its own first character otherwise. */
  lemma NormalizeFirst(t: string)
    requires |t| > 0
    ensures |NormalizeLineEndings(t)| > 0
    ensures NormalizeLineEndings(t)[0] == (if OccursAt(t, Crlf, 0) then ' ' else t[0])
  {
    if |t| >= 2 && t[..2] != Crlf {
      assert NormalizeLineEndings(t) == [t[0]] + NormalizeLineEndings(t[1..]);
    }
  }

  /** Normalised text holds no CR LF pair, not even where a carriage return
      precedes a pair that was replaced. */
  lemma {:induction false} NormalizeLeavesNoCrlf(s: string)
    ensures !Occurs(NormalizeLineEndings(s), Crlf)
    decreases |s|
  {
    if |s| < 2 {
    } else if s[..2] == Crlf {
      var t := NormalizeLineEndings(s[2..]);
      NormalizeLeavesNoCrlf(s[2..]);
      assert NormalizeLineEndings(s) == [' '] + t;
      assert !OccursAt([' '] + t, Crlf, 0) by {
        if |t| >= 1 {
          assert ([' '] + t)[..2][0] == ' ';
        }
      }
      ConsOccurrences(' ', t, Crlf);
    } else {
      var t := NormalizeLineEndings(s[1..]);
      NormalizeLeavesNoCrlf(s[1..]);
      assert NormalizeLineEndings(s) == [s[0]] + t;
      if s[0] == '\r' {
        assert s[1] != '\n' by {
          assert s[..2] == [s[0], s[1]];
        }
        NormalizeFirst(s[1..]);
        assert ([s[0]] + t)[1] != '\n';
      }
      ConsOccurrences(s[0], t, Crlf);
    }
  }

  /** Text without CR LF pairs passes through unchanged, so normalising twice
      is normalising once. */
  lemma NormalizeIdempotent(s: string)
    ensures NormalizeLineEndings(NormalizeLineEndings(s)) == NormalizeLineEndings(s)
  {
    NormalizeLeavesNoCrlf(s);
    ReplaceAllAbsent(NormalizeLineEndings(s), Crlf, " ");
  }

  // ---------------------------------------------------------------------
  // path.basename
  // ---------------------------------------------------------------------

  function StripTrailingSlashes(p: string): (r: string)
    ensures r == [] || r[|r| - 1] != '/'
    ensures |r| <= |p| && r == p[..|r|]
  {
    if |p| > 0 && p[|p| - 1] == '/' then StripTrailingSlashes(p[..|p| - 1]) else p
  }

  /** The characters after the last slash. */
  function LastSegment(p: string): (r: string)
    ensures '/' !in r
    ensures |r| <= |p| && r == p[|p| - |r|..]
  {
    if |p| == 0 || p[|p| - 1] == '/' then ""
    else LastSegment(p[..|p| - 1]) + [p[|p| - 1]]
  }

  /** POSIX `path.basename(p)`: trailing slashes are ignored, then the last
      path segment is returned. */
  function Basename(p: string): string
  {
    LastSegment(StripTrailingSlashes(p))
  }

  lemma LastSegmentSnoc(x: string, c: char)
    requires c != '/'
    ensures LastSegment(x + [c]) == LastSegment(x) + [c]
  {
    assert (x + [c])[..|x|] == x;
  }

  lemma {:induction false} LastSegmentAfterSlash(dir: string, name: string)
    requires '/' !in name
    ensures LastSegment(dir + "/" + name) == name
    decreases |name|
  {
    if name == [] {
      assert dir + "/" + name == dir + "/";
    } else {
      var init := name[..|name| - 1];
      var c := name[|name| - 1];
      assert name == init + [c];
      assert dir + "/" + name == (dir + "/" + init) + [c];
      LastSegmentAfterSlash(dir, init);
      LastSegmentSnoc(dir + "/" + init, c);
    }
  }

  /** The base name of a file placed in a directory is the file's own name. */
  lemma BasenameOfJoin(dir: string, name: string)
    requires name != [] && '/' !in name
    ensures Basename(dir + "/" + name) == name
  {
    LastSegmentAfterSlash(dir, name);
  }

  // ---------------------------------------------------------------------
  // parsePdf
  // ---------------------------------------------------------------------

  /** `parsePdf(filePath)`. A missing file is rejected before the parser is
      asked anything; a parser data error names only the file's base name;
      extracted text has every CR LF pair replaced by a space. */
  function ParsePdf(fileExists: string -> bool, rawText: string -> Option<string>,
                    path: string): (r: Outcome<string>)
    ensures !fileExists(path) ==> r == Err("File not found: " + path)
    ensures fileExists(path) && rawText(path).None? ==>
              r == Err("Failed to parse PDF content: " + Basename(path))
    ensures r.Ok? <==> fileExists(path) && rawText(path).Some?
    ensures r.Ok? ==> r.value == NormalizeLineEndings(rawText(path).value)
    ensures r.Ok? ==> !Occurs(r.value, Crlf)
  {
    if !fileExists(path) then
      Err("File not found: " + path)
    else
      match rawText(path)
      case None => Err("Failed to parse PDF content: " + Basename(path))
      case Some(raw) =>
        NormalizeLeavesNoCrlf(raw);
        Ok(NormalizeLineEndings(raw))
  }
}

=== FILE: pipeline.dfy ===
/** The worker's job handler (worker.js:68-151): one queued job is driven
    through parse CV, parse report, embed, search, generate and JSON parse,
    with the job record written before the first stage and after the last.

    Every external service is a field of `Env`; the handler itself is a pure
    function from those services' answers to the calls it makes and the
    records it writes. */
module Pipeline {
  import opened Outcomes
  import opened JsonValues
  import opened JsString
  import opened Pdf
  import opened Response
  import opened Prompt
  import opened Jobs

  /** An embedding vector; its numbers are never inspected here. */
  type Vector = seq<real>

  /** The number of reference documents requested from the vector index. */
  const SearchLimit: nat := 4

  datatype Env = Env(
    /** `path.join(__dirname, "uploads", id)` for a string id. */
    uploadPath: string -> string,
    /** The message of the `TypeError` `path.join` throws for a non-string id. */
    pathTypeError: Json -> string,
    /** `fs.existsSync`. */
    fileExists: string -> bool,
    /** pdf2json: the raw text of a file, or `None` on a parser data error. */
    pdfText: string -> Option<string>,
    /** The sentence-embedding model. */
    embed: string -> Outcome<Vector>,
    /** The vector index search, given the query vector and the limit. */
    search: (Vector, nat) -> Outcome<seq<Payload>>,
    /** The generative model: prompt in, response text out. */
    generate: string -> Outcome<string>,
    /** `JSON.parse`. */
    parseJson: string -> Outcome<Json>)

  datatype Stage = ParseCv | ParseReport | Embed | Search | Generate | ParseResult

  /** The order in which the handler runs its stages. */
  const StageOrder: seq<Stage> := [ParseCv, ParseReport, Embed, Search, Generate, ParseResult]

  /** One call the handler makes to an external service, with its argument. */
  datatype Call =
    | ParseCvCall(cvPath: string)
    | ParseReportCall(reportPath: string)
    | EmbedCall(query: string)
    | SearchCall(vector: Vector, limit: nat)
    | GenerateCall(prompt: string)
    | ParseJsonCall(text: string)

  function StageOf(c: Call): Stage
  {
    match c
    case ParseCvCall(_) => ParseCv
    case ParseReportCall(_) => ParseReport
    case EmbedCall(_) => Embed
    case SearchCall(_, _) => Search
    case GenerateCall(_) => Generate
    case ParseJsonCall(_) => ParseResult
  }

  function ErrorOf<T>(o: Outcome<T>): Option<string>
  {
    if o.Err? then Some(o.message) else None
  }

  /** The error a call throws when made against `env`, `None` if it returns. */
  function CallError(env: Env, c: Call): Option<string>
  {
    match c
    case ParseCvCall(p) => ErrorOf(ParsePdf(env.fileExists, env.pdfText, p))
    case ParseReportCall(p) => ErrorOf(ParsePdf(env.fileExists, env.pdfText, p))
    case EmbedCall(q) => ErrorOf(env.embed(q))
    case SearchCall(v, k) => ErrorOf(env.search(v, k))
    case GenerateCall(p) => ErrorOf(env.generate(p))
    case ParseJsonCall(t) => ErrorOf(env.parseJson(t))
  }

  /** `path.join(__dirname, "uploads", id)`, which throws for a non-string id. */
  function UploadPath(env: Env, id: Json): Outcome<string>
  {
    match id
    case JStr(s) => Ok(env.uploadPath(s))
    case _ => Err(env.pathTypeError(id))
  }

  /** The calls a run made, in order, and what the `try` block ended with:
      the parsed evaluation, or the message of the first error thrown. */
  datatype StageRun = StageRun(calls: seq<Call>, outcome: Outcome<Json>)

  /** `calls` are the calls of the stages from `k` on, made until one threw:
      each call belongs to its stage, every call but the last returned, and
      `outcome` is the last call's error, or, when the last call is the final
      stage and returned, the value `JSON.parse` gave. */
  predicate Chained(env: Env, calls: seq<Call>, outcome: Outcome<Json>, k: nat)
    requires k < |StageOrder|
    decreases |calls|
  {
    && calls != []
    && StageOf(calls[0]) == StageOrder[k]
    && if |calls| == 1 then
         match CallError(env, calls[0])
         case Some(m) => outcome == Err(m)
         case None =>
           && k == |StageOrder| - 1
           && outcome.Ok?
           && env.parseJson(calls[0].text) == Ok(outcome.value)
       else
         && k < |StageOrder| - 1
         && CallError(env, calls[0]).None?
         && Chained(env, calls[1..], outcome, k + 1)
  }

  /** What `Chained` says about the whole sequence of calls: they follow the
      stage order, there are no more calls than stages left, every call but
      the last returned, the run succeeded exactly when it reached the final
      stage and that call returned, with the value `JSON.parse` gave, and
      otherwise it failed with the message of its last call. */
  lemma {:induction false} ChainedMeans(env: Env, calls: seq<Call>, outcome: Outcome<Json>, k: nat)
    requires k < |StageOrder|
    requires Chained(env, calls, outcome, k)
    ensures 0 < |calls| <= |StageOrder| - k
    ensures forall i :: 0 <= i < |calls| ==> StageOf(calls[i]) == StageOrder[k + i]
    ensures forall i :: 0 <= i < |calls| - 1 ==> CallError(env, calls[i]).None?
    ensures outcome.Ok? <==>
              |calls| == |StageOrder| - k && CallError(env, calls[|calls| - 1]).None?
    ensures outcome.Err? ==> CallError(env, calls[|calls| - 1]) == Some(outcome.message)
    ensures outcome.Ok? ==>
              calls[|calls| - 1].ParseJsonCall?
              && env.parseJson(calls[|calls| - 1].text) == Ok(outcome.value)
    decreases |calls|
  {
    if |calls| > 1 {
      var rest := calls[1..];
      ChainedMeans(env, rest, outcome, k + 1);
      forall i | 0 < i < |calls|
        ensures StageOf(calls[i]) == StageOrder[k + i]
      {
        assert calls[i] == rest[i - 1];
      }
      forall i | 0 < i < |calls| - 1
        ensures CallError(env, calls[i]).None?
      {
        assert calls[i] == rest[i - 1];
      }
      assert calls[|calls| - 1] == rest[|rest| - 1];
    }
  }

  /** `JSON.parse(cleanedJsonString)` (worker.js:137-141). */
  function RunParse(env: Env, response: string): (run: StageRun)
    ensures Chained(env, run.calls, run.outcome, 5)
    ensures run.calls == [ParseJsonCall(Clean(response))]
  {
    var c := ParseJsonCall(Clean(response));
    match env.parseJson(Clean(response))
    case Err(m) => StageRun([c], Err(m))
    case Ok(result) => StageRun([c], Ok(result))
  }

  /** `geminiModel.generateContent(prompt)` and what follows (worker.js:133-141). */
  function RunGenerate(env: Env, prompt: string): (run: StageRun)
    ensures Chained(env, run.calls, run.outcome, 4)
    ensures run.calls[0] == GenerateCall(prompt)
    ensures |run.calls| > 1 ==>
              (env.generate(prompt).Ok?
               && run.calls[1..] == RunParse(env, env.generate(prompt).value).calls)
  {
    var c := GenerateCall(prompt);
    match env.generate(prompt)
    case Err(m) => StageRun([c], Err(m))
    case Ok(response) =>
      var rest := RunParse(env, response);
      assert ([c] + rest.calls)[1..] == rest.calls;
      StageRun([c] + rest.calls, rest.outcome)
  }

  /** The vector search, the context and the prompt (worker.js:91-129). */
  function RunSearch(env: Env, vector: Vector, cvText: string, reportText: string): (run: StageRun)
    ensures Chained(env, run.calls, run.outcome, 3)
    ensures run.calls[0] == SearchCall(vector, SearchLimit)
    ensures |run.calls| > 1 ==>
              (env.search(vector, SearchLimit).Ok?
               && run.calls[1..] == RunGenerate(env, BuildPrompt(
                    Context(env.search(vector, SearchLimit).value), cvText, reportText)).calls)
  {
    var c := SearchCall(vector, SearchLimit);
    match env.search(vector, SearchLimit)
    case Err(m) => StageRun([c], Err(m))
    case Ok(docs) =>
      var rest := RunGenerate(env, BuildPrompt(Context(docs), cvText, reportText));
      assert ([c] + rest.calls)[1..] == rest.calls;
      StageRun([c] + rest.calls, rest.outcome)
  }

  /** The embedding of the CV prefix (worker.js:84-88). */
  function RunEmbed(env: Env, cvText: string, reportText: string): (run: StageRun)
    ensures Chained(env, run.calls, run.outcome, 2)
    ensures run.calls[0] == EmbedCall(EmbeddingQuery(cvText))
    ensures |run.calls| > 1 ==>
              (env.embed(EmbeddingQuery(cvText)).Ok?
               && run.calls[1..] == RunSearch(env, env.embed(EmbeddingQuery(cvText)).value,
                                              cvText, reportText).calls)
  {
    var c := EmbedCall(EmbeddingQuery(cvText));
    match env.embed(EmbeddingQuery(cvText))
    case Err(m) => StageRun([c], Err(m))
    case Ok(vector) =>
      var rest := RunSearch(env, vector, cvText, reportText);
      assert ([c] + rest.calls)[1..] == rest.calls;
      StageRun([c] + rest.calls, rest.outcome)
  }

  /** `parsePdf(reportPath)` (worker.js:79). */
  function RunReport(env: Env, cvText: string, reportPath: string): (run: StageRun)
    ensures Chained(env, run.calls, run.outcome, 1)
    ensures run.calls[0] == ParseReportCall(reportPath)
    ensures |run.calls| > 1 ==>
              (ParsePdf(env.fileExists, env.pdfText, reportPath).Ok?
               && run.calls[1..] == RunEmbed(env, cvText,
                    ParsePdf(env.fileExists, env.pdfText, reportPath).value).calls)
  {
    var c := ParseReportCall(reportPath);
    match ParsePdf(env.fileExists, env.pdfText, reportPath)
    case Err(m) => StageRun([c], Err(m))
    case Ok(reportText) =>
      var rest := RunEmbed(env, cvText, reportText);
      assert ([c] + rest.calls)[1..] == rest.calls;
      StageRun([c] + rest.calls, rest.outcome)
  }

  /** `parsePdf(cvPath)` (worker.js:78). */
  function RunCv(env: Env, cvPath: string, reportPath: string): (run: StageRun)
    ensures Chained(env, run.calls, run.outcome, 0)
    ensures run.calls[0] == ParseCvCall(cvPath)
    ensures |run.calls| > 1 ==>
              (ParsePdf(env.fileExists, env.pdfText, cvPath).Ok?
               && run.calls[1..] == RunReport(env,
                    ParsePdf(env.fileExists, env.pdfText, cvPath).value, reportPath).calls)
  {
    var c := ParseCvCall(cvPath);
    match ParsePdf(env.fileExists, env.pdfText, cvPath)
    case Err(m) => StageRun([c], Err(m))
    case Ok(cvText) =>
      var rest := RunReport(env, cvText, reportPath);
      assert ([c] + rest.calls)[1..] == rest.calls;
      StageRun([c] + rest.calls, rest.outcome)
  }

  /** The body of the `try` block (worker.js:74-141). Both upload paths are
      built before anything is parsed, so a bad report id fails the job before
      the CV is read; after that the stages run strictly in order and the
      first one that throws ends the run. */
  function RunStages(env: Env, data: JobData): (run: StageRun)
    ensures run.calls == [] <==>
              UploadPath(env, data.cvId).Err? || UploadPath(env, data.reportId).Err?
    ensures run.calls == [] ==> run.outcome.Err?
    ensures UploadPath(env, data.cvId).Err? ==>
              run.outcome == Err(UploadPath(env, data.cvId).message)
    ensures UploadPath(env, data.cvId).Ok? && UploadPath(env, data.reportId).Err? ==>
              run.outcome == Err(UploadPath(env, data.reportId).message)
    ensures run.calls != [] ==> Chained(env, run.calls, run.outcome, 0)
  {
    match UploadPath(env, data.cvId)
    case Err(m) => StageRun([], Err(m))
    case Ok(cvPath) =>
      match UploadPath(env, data.reportId)
      case Err(m) => StageRun([], Err(m))
      case Ok(reportPath) => RunCv(env, cvPath, reportPath)
  }

  /** What each call is given: the CV and report paths built from the job's
      ids; the first 500 characters of the parsed CV; the vector the embedder
      returned with the limit 4; a prompt holding the context built from the
      search hits and both full texts; the cleaned response text. */
  lemma StageInputs(env: Env, data: JobData)
    ensures var c := RunStages(env, data).calls;
            && (|c| >= 1 ==> data.cvId.JStr? && data.reportId.JStr?
                             && c[0] == ParseCvCall(env.uploadPath(data.cvId.s)))
            && (|c| >= 2 ==> ParsePdf(env.fileExists, env.pdfText, c[0].cvPath).Ok?
                             && c[1] == ParseReportCall(env.uploadPath(data.reportId.s)))
            && (|c| >= 3 ==> ParsePdf(env.fileExists, env.pdfText, c[1].reportPath).Ok?
                             && c[2] == EmbedCall(EmbeddingQuery(
                                          ParsePdf(env.fileExists, env.pdfText, c[0].cvPath).value)))
            && (|c| >= 4 ==> env.embed(c[2].query).Ok?
                             && c[3] == SearchCall(env.embed(c[2].query).value, SearchLimit))
            && (|c| >= 5 ==> env.search(c[3].vector, c[3].limit).Ok?
                             && c[4] == GenerateCall(BuildPrompt(
                                          Context(env.search(c[3].vector, c[3].limit).value),
                                          ParsePdf(env.fileExists, env.pdfText, c[0].cvPath).value,
                                          ParsePdf(env.fileExists, env.pdfText, c[1].reportPath).value)))
            && (|c| >= 6 ==> env.generate(c[4].prompt).Ok?
                             && c[5] == ParseJsonCall(Clean(env.generate(c[4].prompt).value)))
  {
    var c := RunStages(env, data).calls;
    if |c| >= 2 {
      var cvPath := c[0].cvPath;
      var cvText := ParsePdf(env.fileExists, env.pdfText, cvPath).value;
      var r1 := RunReport(env, cvText, c[1].reportPath);
      assert c[1..] == r1.calls;
      if |c| >= 3 {
        var reportText := ParsePdf(env.fileExists, env.pdfText, c[1].reportPath).value;
        var r2 := RunEmbed(env, cvText, reportText);
        assert c[2..] == r2.calls;
        if |c| >= 4 {
          var r3 := RunSearch(env, env.embed(c[2].query).value, cvText, reportText);
          assert c[3..] == r3.calls;
          if |c| >= 6 {
            var r4 := RunGenerate(env, c[4].prompt);
            assert c[4..] == r4.calls;
          }
        }
      }
    }
  }

  /** A CV id naming no file stops the run at the CV stage with
      "File not found: <path>": the report is not parsed and the embedder,
      the index and the generator are never called. */
  lemma MissingCvStopsRun(env: Env, data: JobData)
    requires data.cvId.JStr? && data.reportId.JStr?
    requires !env.fileExists(env.uploadPath(data.cvId.s))
    ensures var path := env.uploadPath(data.cvId.s);
            && RunStages(env, data).calls == [ParseCvCall(path)]
            && RunStages(env, data).outcome == Err("File not found: " + path)
  {
  }

  /** An empty search result is not a failure: generation still runs, on
      the prompt built from the empty context and both full texts. */
  lemma EmptySearchStillGenerates(env: Env, data: JobData)
    requires |RunStages(env, data).calls| >= 4
    requires var c := RunStages(env, data).calls[3];
             env.search(c.vector, c.limit) == Ok([])
    ensures var c := RunStages(env, data).calls;
            && |c| >= 5
            && c[4] == GenerateCall(BuildPrompt("",
                         ParsePdf(env.fileExists, env.pdfText, c[0].cvPath).value,
                         ParsePdf(env.fileExists, env.pdfText, c[1].reportPath).value))
  {
    var c := RunStages(env, data).calls;
    StageInputs(env, data);
    assert |c| >= 5 by {
      var run := RunStages(env, data);
      ChainedMeans(env, run.calls, run.outcome, 0);
      assert CallError(env, c[3]).None?;
    }
    ContextLayout([]);
  }

  /** A generator answer that wraps the JSON text in a ```json fence is
      handed to `JSON.parse` without the fence, when the text is non-empty,
      has no white space at either end and holds no "```" of its own. */
  lemma FencedAnswerParsedBare(env: Env, data: JobData, json: string)
    requires json != [] && Trimmed(json) && !Occurs(json, Fence)
    requires |RunStages(env, data).calls| >= 5
    requires env.generate(RunStages(env, data).calls[4].prompt)
             == Ok(JsonFence + "\n" + json + "\n" + Fence)
    ensures RunStages(env, data).calls[5] == ParseJsonCall(json)
  {
    StageInputs(env, data);
    CleanUnwrapsFencedJson(json);
  }

  // ---------------------------------------------------------------------
  // The handler and its record writes
  // ---------------------------------------------------------------------

  /** What the handler does, in order: store writes and service calls. */
  datatype Effect = Write(id: JobId, record: JobRecord) | Invoke(call: Call)

  function Invocations(calls: seq<Call>): (es: seq<Effect>)
    ensures |es| == |calls|
    ensures forall i :: 0 <= i < |calls| ==> es[i] == Invoke(calls[i])
  {
    seq(|calls|, i requires 0 <= i < |calls| => Invoke(calls[i]))
  }

  /** The record the `try`/`catch` leaves behind. */
  function FinalRecord(outcome: Outcome<Json>): JobRecord
  {
    match outcome
    case Ok(result) => CompletedRecord(result)
    case Err(m) => FailedRecord(m)
  }

  /** The handler for the job `id` carrying `data`: it writes `processing`
      before any stage, then runs the stages, then writes `completed` with
      the parsed result or `failed` with the error message. No stage error
      escapes: every run ends in exactly one terminal write. */
  function Handle(env: Env, id: JobId, data: JobData): (effects: seq<Effect>)
    ensures 2 <= |effects| <= |StageOrder| + 2
    ensures effects[0] == Write(id, ProcessingRecord(data))
    ensures effects[|effects| - 1].Write? && effects[|effects| - 1].id == id
    ensures var last := effects[|effects| - 1].record;
            && WellFormed(last) && Terminal(last.status)
            && (last.status == Completed <==> RunStages(env, data).outcome.Ok?)
    ensures forall i :: 0 < i < |effects| - 1 ==> effects[i].Invoke?
    ensures effects[1..|effects| - 1] == Invocations(RunStages(env, data).calls)
  {
    var run := RunStages(env, data);
    [Write(id, ProcessingRecord(data))] + Invocations(run.calls)
      + [Write(id, FinalRecord(run.outcome))]
  }

  /** A completed job holds exactly what `JSON.parse` returned for the cleaned
      answer, unchecked; a failed job holds exactly the message of the stage
      that threw, and that stage is the last call made. When no call was
      made, the message is that of the first `path.join` that threw. */
  lemma HandleOutcome(env: Env, id: JobId, data: JobData)
    ensures var run := RunStages(env, data);
            var effects := Handle(env, id, data);
            var last := effects[|effects| - 1].record;
            && (run.outcome.Ok? ==>
                  && last == CompletedRecord(run.outcome.value)
                  && |run.calls| == |StageOrder|
                  && run.calls[|run.calls| - 1].ParseJsonCall?
                  && env.parseJson(run.calls[|run.calls| - 1].text) == Ok(run.outcome.value))
            && (run.outcome.Err? ==>
                  && last == FailedRecord(run.outcome.message)
                  && (run.calls != [] ==>
                        CallError(env, run.calls[|run.calls| - 1]) == Some(run.outcome.message))
                  && (run.calls == [] ==>
                        run.outcome.message == (if UploadPath(env, data.cvId).Err?
                                                then UploadPath(env, data.cvId).message
                                                else UploadPath(env, data.reportId).message)))
  {
    var run := RunStages(env, data);
    var effects := Handle(env, id, data);
    assert effects[|effects| - 1] == Write(id, FinalRecord(run.outcome));
    if run.calls != [] {
      ChainedMeans(env, run.calls, run.outcome, 0);
    }
  }

}

=== FILE: prompt.dfy ===
/** The strings the worker builds between its external calls: the embedding
    query (worker.js:84), the retrieval context (worker.js:97-102) and the
    evaluation prompt (worker.js:109-129). */
module Prompt {
  import opened JsString

  /** The retrieval query is the first 500 characters of the CV text. */
  const QueryLength: nat := 500

  /** `cvText.substring(0, 500)`: the longest prefix of at most 500 characters. */
  function EmbeddingQuery(cvText: string): (q: string)
    ensures |q| == if |cvText| < QueryLength then |cvText| else QueryLength
    ensures q == cvText[..|q|]
  {
    Substring(cvText, 0, QueryLength)
  }

  // ---------------------------------------------------------------------
  // Retrieval context
  // ---------------------------------------------------------------------

  /** The payload of one search hit: its document type and its text. */
  datatype Payload = Payload(kind: string, content: string)

  const Separator: string := "\n\n"

  /** One retrieved document as it appears in the context. */
  function Block(d: Payload): string
  {
    "--- DOCUMENT: " + d.kind + " ---\n" + d.content
  }

  function Blocks(docs: seq<Payload>): (bs: seq<string>)
    ensures |bs| == |docs|
    ensures forall i :: 0 <= i < |docs| ==> bs[i] == Block(docs[i])
  {
    seq(|docs|, i requires 0 <= i < |docs| => Block(docs[i]))
  }

  /** `searchResult.map(...).join("\n\n")`. */
  function Context(docs: seq<Payload>): string
  {
    Join(Blocks(docs), Separator)
  }

  /** Where the block of the `i`-th retrieved document starts in the context. */
  function BlockOffset(docs: seq<Payload>, i: nat): nat
    requires i <= |docs|
  {
    Offset(Blocks(docs), Separator, i)
  }

  /** The context holds one block per retrieved document, in retrieval order,
      with a blank line between consecutive blocks and nothing else; no hits
      give the empty context rather than a failure. */
  lemma ContextLayout(docs: seq<Payload>)
    ensures docs == [] ==> Context(docs) == ""
    ensures docs != [] ==>
              |Context(docs)| == BlockOffset(docs, |docs| - 1) + |Block(docs[|docs| - 1])|
    ensures forall i :: 0 <= i < |docs| ==>
              OccursAt(Context(docs), Block(docs[i]), BlockOffset(docs, i))
    ensures forall i :: 0 <= i < |docs| - 1 ==>
              OccursAt(Context(docs), Separator, BlockOffset(docs, i) + |Block(docs[i])|)
  {
    if docs != [] {
      ContextLength(docs);
    }
    forall i | 0 <= i < |docs|
      ensures OccursAt(Context(docs), Block(docs[i]), BlockOffset(docs, i))
    {
      ContextBlock(docs, i);
    }
    forall i | 0 <= i < |docs| - 1
      ensures OccursAt(Context(docs), Separator, BlockOffset(docs, i) + |Block(docs[i])|)
    {
      ContextSeparator(docs, i);
    }
  }

  lemma ContextLength(docs: seq<Payload>)
    requires docs != []
    ensures |Context(docs)| == BlockOffset(docs, |docs| - 1) + |Block(docs[|docs| - 1])|
  {
    JoinLength(Blocks(docs), Separator);
  }

  lemma ContextBlock(docs: seq<Payload>, i: nat)
    requires i < |docs|
    ensures OccursAt(Context(docs), Block(docs[i]), BlockOffset(docs, i))
  {
    JoinPart(Blocks(docs), Separator, i);
  }

  lemma ContextSeparator(docs: seq<Payload>, i: nat)
    requires i + 1 < |docs|
    ensures OccursAt(Context(docs), Separator, BlockOffset(docs, i) + |Block(docs[i])|)
  {
    JoinSeparator(Blocks(docs), Separator, i);
  }

  // ---------------------------------------------------------------------
  // Prompt template
  // ---------------------------------------------------------------------

  /** The template text before the context section, from the line break
      that opens the template literal up to the blank line after the JSON
      schema. */
  const Instructions: string :=
    "\n"
    + "You are an expert AI HR assistant for a backend developer position.\n"
    + "Your task is to evaluate a candidate based on their CV and project report.\n"
    + "Use the provided documents as the absolute ground truth.\n"
    + "\n"
    + "Return ONLY a valid JSON:\n"
    + "{\n"
    + "  \"cv_match_rate\": float (0.0 to 1.0),\n"
    + "  \"cv_feedback\": \"string\",\n"
    + "  \"project_score\": float (1.0 to 5.0),\n"
    + "  \"project_feedback\": \"string\",\n"
    + "  \"overall_summary\": \"3-5 sentence summary\"\n"
    + "}\n"
    + "\n"

  const ContextHeading: string := "--- CONTEXT DOCUMENTS ---\n"
  const CvHeading: string := "\n--- CANDIDATE CV ---\n"
  const ReportHeading: string := "\n--- CANDIDATE PROJECT REPORT ---\n"

  /** The template literal closes on an indented line: a newline and eight spaces. */
  const Closing: string := "\n        "

  /** The fixed text of a prompt template around its three slots. */
  datatype Template = Template(intro: string, contextHeading: string, cvHeading: string,
                               reportHeading: string, closing: string)

  const PromptTemplate: Template := Template(Instructions, ContextHeading, CvHeading, ReportHeading, Closing)

  /** The template literal with its three slots filled. */
  function Fill(t: Template, context: string, cvText: string, reportText: string): string
  {
    t.intro + t.contextHeading + context + t.cvHeading + cvText
      + t.reportHeading + reportText + t.closing
  }

  function BuildPrompt(context: string, cvText: string, reportText: string): string
  {
    Fill(PromptTemplate, context, cvText, reportText)
  }

  /** A filled template carries the context, the CV text and the report
      text verbatim, each right after its heading, in the order context, CV,
      report; nothing is truncated and the template text surrounds them. */
  lemma FillLayout(t: Template, context: string, cvText: string, reportText: string)
    ensures var p := Fill(t, context, cvText, reportText);
            var c := |t.intro| + |t.contextHeading|;
            var v := c + |context| + |t.cvHeading|;
            var r := v + |cvText| + |t.reportHeading|;
            && |p| == r + |reportText| + |t.closing|
            && OccursAt(p, t.intro, 0)
            && OccursAt(p, t.contextHeading, |t.intro|)
            && OccursAt(p, context, c)
            && OccursAt(p, t.cvHeading, c + |context|)
            && OccursAt(p, cvText, v)
            && OccursAt(p, t.reportHeading, v + |cvText|)
            && OccursAt(p, reportText, r)
            && OccursAt(p, t.closing, r + |reportText|)
  {
    Layout(t.intro, t.contextHeading, context, t.cvHeading, cvText, t.reportHeading, reportText, t.closing);
  }

  /** With no retrieved documents, the CV heading follows the context
      heading directly. */
  lemma FillEmptyContext(t: Template, cvText: string, reportText: string)
    ensures OccursAt(Fill(t, "", cvText, reportText), t.contextHeading + t.cvHeading, |t.intro|)
  {
    var p := Fill(t, "", cvText, reportText);
    var i := |t.intro|;
    FillLayout(t, "", cvText, reportText);
    assert p[i..i + |t.contextHeading + t.cvHeading|]
           == p[i..i + |t.contextHeading|] + p[i + |t.contextHeading|..i + |t.contextHeading| + |t.cvHeading|];
  }

  /** A filled template starts where its intro starts and ends with its closing text. */
  lemma FillEnds(t: Template, context: string, cvText: string, reportText: string)
    requires t.intro != []
    ensures var p := Fill(t, context, cvText, reportText);
            && |p| >= |t.closing|
            && p[0] == t.intro[0]
            && p[|p| - |t.closing|..] == t.closing
  {
    var p := Fill(t, context, cvText, reportText);
    FillLayout(t, context, cvText, reportText);
    assert p[0] == p[0..|t.intro|][0];
    assert p[|p| - |t.closing|..] == p[|p| - |t.closing|..|p| - |t.closing| + |t.closing|];
  }

  /** Eight strings laid end to end each sit at the sum of the lengths before it. */
  lemma Layout(s0: string, s1: string, s2: string, s3: string,
               s4: string, s5: string, s6: string, s7: string)
    ensures var p := s0 + s1 + s2 + s3 + s4 + s5 + s6 + s7;
            && |p| == |s0| + |s1| + |s2| + |s3| + |s4| + |s5| + |s6| + |s7|
            && OccursAt(p, s0, 0)
            && OccursAt(p, s1, |s0|)
            && OccursAt(p, s2, |s0| + |s1|)
            && OccursAt(p, s3, |s0| + |s1| + |s2|)
            && OccursAt(p, s4, |s0| + |s1| + |s2| + |s3|)
            && OccursAt(p, s5, |s0| + |s1| + |s2| + |s3| + |s4|)
            && OccursAt(p, s6, |s0| + |s1| + |s2| + |s3| + |s4| + |s5|)
            && OccursAt(p, s7, |s0| + |s1| + |s2| + |s3| + |s4| + |s5| + |s6|)
  {
    LayoutFront(s0, s1, s2, s3, s4, s5, s6, s7);
    LayoutBack(s0, s1, s2, s3, s4, s5, s6, s7);
  }

  /** A piece found in a prefix stays where it is as the remaining pieces follow. */
  lemma ExtendFour(a: string, t4: string, t5: string, t6: string, t7: string, pat: string, i: int)
    requires OccursAt(a, pat, i)
    ensures OccursAt(a + t4 + t5 + t6 + t7, pat, i)
  {
    Extend(a, t4, pat, i);
    Extend(a + t4, t5, pat, i);
    Extend(a + t4 + t5, t6, pat, i);
    Extend(a + t4 + t5 + t6, t7, pat, i);
  }

  lemma LayoutFront(s0: string, s1: string, s2: string, s3: string,
                    s4: string, s5: string, s6: string, s7: string)
    ensures var p := s0 + s1 + s2 + s3 + s4 + s5 + s6 + s7;
            && OccursAt(p, s0, 0)
            && OccursAt(p, s1, |s0|)
            && OccursAt(p, s2, |s0| + |s1|)
            && OccursAt(p, s3, |s0| + |s1| + |s2|)
  {
    var a := s0 + s1 + s2 + s3;
    LastPiece("", s0);
    Extend(s0, s1, s0, 0);
    Extend(s0 + s1, s2, s0, 0);
    Extend(s0 + s1 + s2, s3, s0, 0);
    LastPiece(s0, s1);
    Extend(s0 + s1, s2, s1, |s0|);
    Extend(s0 + s1 + s2, s3, s1, |s0|);
    LastPiece(s0 + s1, s2);
    Extend(s0 + s1 + s2, s3, s2, |s0| + |s1|);
    LastPiece(s0 + s1 + s2, s3);
    ExtendFour(a, s4, s5, s6, s7, s0, 0);
    ExtendFour(a, s4, s5, s6, s7, s1, |s0|);
    ExtendFour(a, s4, s5, s6, s7, s2, |s0| + |s1|);
    ExtendFour(a, s4, s5, s6, s7, s3, |s0| + |s1| + |s2|);
  }

  lemma LayoutBack(s0: string, s1: string, s2: string, s3: string,
                   s4: string, s5: string, s6: string, s7: string)
    ensures var p := s0 + s1 + s2 + s3 + s4 + s5 + s6 + s7;
            && |p| == |s0| + |s1| + |s2| + |s3| + |s4| + |s5| + |s6| + |s7|
            && OccursAt(p, s4, |s0| + |s1| + |s2| + |s3|)
            && OccursAt(p, s5, |s0| + |s1| + |s2| + |s3| + |s4|)
            && OccursAt(p, s6, |s0| + |s1| + |s2| + |s3| + |s4| + |s5|)
            && OccursAt(p, s7, |s0| + |s1| + |s2| + |s3| + |s4| + |s5| + |s6|)
  {
    var a := s0 + s1 + s2 + s3;
    LastPiece(a, s4);
    Extend(a + s4, s5, s4, |a|);
    Extend(a + s4 + s5, s6, s4, |a|);
    Extend(a + s4 + s5 + s6, s7, s4, |a|);
    LastPiece(a + s4, s5);
    Extend(a + s4 + s5, s6, s5, |a| + |s4|);
    Extend(a + s4 + s5 + s6, s7, s5, |a| + |s4|);
    LastPiece(a + s4 + s5, s6);
    Extend(a + s4 + s5 + s6, s7, s6, |a| + |s4| + |s5|);
    LastPiece(a + s4 + s5 + s6, s7);
  }

  /** The prompt opens with the newline of the template literal and ends with
      a newline followed by eight spaces. */
  lemma PromptEnds(context: string, cvText: string, reportText: string)
    ensures var p := BuildPrompt(context, cvText, reportText);
            |p| >= 9 && p[0] == '\n' && p[|p| - 9..] == "\n        "
  {
    assert Instructions[0] == '\n';
    FillEnds(PromptTemplate, context, cvText, reportText);
  }
}

=== FILE: response.dfy ===
/** Cleaning of the generator's raw response before `JSON.parse`
    (worker.js:137-140): every "```json" is deleted, then every remaining
    "```", then the result is trimmed. */
module Response {
  import opened JsString

  const JsonFence: string := "```json"
  const Fence: string := "```"

  /** Deleting every fence (leftmost, non-overlapping) from `s`. */
  function StripFences(s: string): string
  {
    ReplaceAll(s, Fence, "")
  }

  /** A string that does not start with a backtick keeps its first character. */
  lemma StripFencesKeepsFirst(s: string)
    requires |s| > 0 && s[0] != '`'
    ensures |StripFences(s)| > 0 && StripFences(s)[0] == s[0]
  {
    if |s| >= 3 {
      assert s[..3][0] == s[0];
      assert StripFences(s) == [s[0]] + StripFences(s[1..]);
    }
  }

  /** When `s` does not start with a fence, the character kept in front of the
      stripped rest does not complete a fence with it. */
  lemma NoFenceAtFront(s: string)
    requires |s| >= 3 && s[..3] != Fence
    ensures !OccursAt([s[0]] + StripFences(s[1..]), Fence, 0)
  {
    var u := [s[0]] + StripFences(s[1..]);
    if s[0] != '`' {
      assert u[0] != '`';
    } else if s[1] != '`' {
      StripFencesKeepsFirst(s[1..]);
      assert u[1] == s[1];
    } else if |s| == 3 {
      assert StripFences(s[1..]) == s[1..];
      assert u == s;
    } else {
      var r := s[1..];
      assert s[2] != '`' by {
        assert s[..3] == [s[0], s[1], s[2]];
      }
      assert r[..3][1] == s[2];
      assert StripFences(r) == [r[0]] + StripFences(r[1..]);
      assert r[1..] == s[2..];
      StripFencesKeepsFirst(s[2..]);
      assert u[2] == s[2];
    }
  }

  /** After deleting fences, no fence is left, even where deletion brought
      backticks from both sides of a deleted fence together. */
  lemma {:induction false} StripFencesLeavesNone(s: string)
    ensures !Occurs(StripFences(s), Fence)
    decreases |s|
  {
    if |s| < 3 {
    } else if s[..3] == Fence {
      assert StripFences(s) == "" + StripFences(s[3..]);
      assert StripFences(s) == StripFences(s[3..]);
      StripFencesLeavesNone(s[3..]);
    } else {
      var t := StripFences(s[1..]);
      StripFencesLeavesNone(s[1..]);
      assert StripFences(s) == [s[0]] + t;
      NoFenceAtFront(s);
      ConsOccurrences(s[0], t, Fence);
    }
  }

  /** Where "```json" occurs, "```" occurs. */
  lemma JsonFenceHasFence(s: string)
    requires !Occurs(s, Fence)
    ensures !Occurs(s, JsonFence)
  {
    forall i | 0 <= i <= |s|
      ensures !OccursAt(s, JsonFence, i)
    {
      if i + 7 <= |s| {
        assert s[i..i + 3] == s[i..i + 7][..3];
        assert !OccursAt(s, Fence, i);
      }
    }
  }

  /** The cleaning step. The result has no whitespace at either end, contains
      no "```" anywhere, and a response without backticks is only trimmed. */
  function Clean(text: string): (r: string)
    ensures Trimmed(r)
    ensures !Occurs(r, Fence)
    ensures '`' !in text ==> r == Trim(text)
  {
    var u := StripFences(ReplaceAll(text, JsonFence, ""));
    StripFencesLeavesNone(ReplaceAll(text, JsonFence, ""));
    TrimKeepsAbsence(u, Fence);
    var r := Trim(u);
    if '`' !in text then
      NoBacktickNoFence(text, JsonFence);
      ReplaceAllAbsent(text, JsonFence, "");
      NoBacktickNoFence(text, Fence);
      ReplaceAllAbsent(text, Fence, "");
      r
    else
      r
  }

  lemma NoBacktickNoFence(s: string, pat: string)
    requires |pat| > 0 && pat[0] == '`'
    requires '`' !in s
    ensures !Occurs(s, pat)
  {
    forall i | 0 <= i <= |s|
      ensures !OccursAt(s, pat, i)
    {
      if i + |pat| <= |s| {
        assert s[i..i + |pat|][0] == s[i];
      }
    }
  }

  /** Cleaning twice is cleaning once. */
  lemma CleanIdempotent(text: string)
    ensures Clean(Clean(text)) == Clean(text)
  {
    var t := Clean(text);
    JsonFenceHasFence(t);
    ReplaceAllAbsent(t, JsonFence, "");
    ReplaceAllAbsent(t, Fence, "");
    TrimOfTrimmed(t);
  }

  /** The opening "```json" goes, and nothing else: the text holds no fence,
      and no match can span a line break. */
  lemma DeleteJsonFence(json: string)
    requires !Occurs(json, Fence)
    ensures ReplaceAll(JsonFence + "\n" + json + "\n" + Fence, JsonFence, "") == "\n" + json + "\n" + Fence
  {
    var s := JsonFence + "\n" + json + "\n" + Fence;
    var rest := "\n" + json + "\n" + Fence;
    assert s == JsonFence + rest;
    assert s[..7] == JsonFence;
    assert s[7..] == rest;
    JsonFenceHasFence(json);
    assert rest == [] + ['\n'] + (json + ['\n'] + Fence);
    ReplaceAllBeforeBreak([], '\n', json + ['\n'] + Fence, JsonFence, "");
    ReplaceAllBeforeBreak(json, '\n', Fence, JsonFence, "");
    assert ReplaceAll(Fence, JsonFence, "") == Fence;
  }

  /** The closing "```" goes, and nothing else. */
  lemma DeleteClosingFence(json: string)
    requires !Occurs(json, Fence)
    ensures StripFences("\n" + json + "\n" + Fence) == "\n" + json + "\n"
  {
    var rest := "\n" + json + "\n" + Fence;
    assert rest == [] + ['\n'] + (json + ['\n'] + Fence);
    ReplaceAllBeforeBreak([], '\n', json + ['\n'] + Fence, Fence, "");
    ReplaceAllBeforeBreak(json, '\n', Fence, Fence, "");
    assert Fence[..3] == Fence;
    assert ReplaceAll(Fence, Fence, "") == "" + ReplaceAll([], Fence, "");
  }

  /** A response that wraps a JSON text in a ```json fence, each fence on its
      own line, cleans to exactly that text, provided the text is non-empty,
      has no white space at either end and holds no "```" of its own. */
  lemma CleanUnwrapsFencedJson(json: string)
    requires json != [] && Trimmed(json)
    requires !Occurs(json, Fence)
    ensures Clean(JsonFence + "\n" + json + "\n" + Fence) == json
  {
    DeleteJsonFence(json);
    DeleteClosingFence(json);
    TrimSurrounded("\n", json, "\n");
  }
}
